=== FILE: README.md ===
# A Dafny model of the bill_craft_labs document editor core

The editor lets a user place text, shapes, images and tables on a fixed A4
page. It keeps an undo history of the element list and a layer list next to
the canvas. This project models the editor's core as pure functions over
immutable datatypes and proves the properties those functions promise.

The modules follow the program's structure:

- `Types` holds the element and layer records and the object-spread merge
  used by the `update…` calls.
- `EditorStore` models the zustand store. It holds the element list, the
  snapshot history with its cursor, the layer list, whether a canvas is
  attached, and the zoom.
- `Scene` models the fabric canvas as the components see it. That is the
  ordered list of canvas objects and the active object. An object carries
  its `data.layerId`, its visibility and its five lock flags.
- `LayerPanel` models the layer panel actions. These are moving a layer up or
  down, with the stable re-sort of canvas objects by layer position, the
  visibility and lock toggles, and deleting a layer.
- `ElementTools` models the element tools: the text, shape and table
  additions, the table grid, the lock button and deleting the selection.
- `Canvas` models the canvas component: snap-to-grid while dragging, the
  zoom steps, Ctrl+L and the keyboard dispatch.
- `TableModal` models the table-size dialog: the input clamp, the defaults
  and the confirm button.
- `ImageUploader` models the recent-images list and adding a loaded image.
- `Seqs` and `Wrappers` hold the JavaScript list helpers (`slice`, `filter`)
  and `Option`.

Modelling choices:

- Geometry is `real`, so `Math.round` is modelled exactly as
  `floor(x + 1/2)`.
- Zoom is an integer percent. The store's factor `1` becomes `100`, and a
  step of `0.1` becomes `10`.
- `Date.now()` inside generated layer ids is an abstract `stamp` string.
- A canvas object's JavaScript identity is an abstract `uid`.
- `parseInt` returns `Option<int>`, where `None` stands for NaN.

Behaviour of the code worth knowing before reading the model:

- `undo` refuses to step back from the first snapshot (cursor 0), so the
  first addition can never be undone (`EditorStore.FirstAddCannotBeUndone`).
- The add tools in `ElementTools.tsx` change only the canvas and the layer
  list. They never call the store's `addElement` and never record a history
  snapshot.
- The only callers of `addElement` are the t/r/c/b keyboard shortcuts, and
  they pass a bare string such as `'text'`. The store appends it like any
  element, so `Types.Element` has a `KindName` case for it.
- `undo` and `redo` empty the canvas and then rebuild each snapshot entry
  with `new fabric[element.type](element)`. Element types are lower case
  (`'text'`, `'image'`, `'shape'`, `'field'`) and a bare string has no
  `type`, while fabric's classes are capitalised, so every non-empty
  snapshot throws at its first entry: the canvas is left empty and the
  store does not move.
- The layer toggles give every object on the layer the layer's new flag.
  They do not restore each object's own earlier state.
- Deleting a layer filters the layer list by id and removes every object on
  it, even when the id is not listed.

## Model

| member | source | states |
|---|---|---|
| Types.MergeElementIdempotent | src/store/editorStore.ts:76-78 | applying the same `{...el, ...updates}` twice equals applying it once, and an empty update leaves the element unchanged |
| Types.LayerIndex | src/components/Layers/LayerPanel.tsx:42 | `findIndex` is -1 or a valid position holding the id, and no earlier position holds it |
| Types.FindLayer | src/components/Layers/LayerPanel.tsx:10 | `find` gives nothing exactly when no layer has the id, and otherwise the first listed layer with that id |
| Seqs.Take | src/store/editorStore.ts:65 | `slice(0, end)` is a prefix, with JavaScript's clipping for `end` past the length and counting from the back for a negative `end` |
| Seqs.Filter | src/store/editorStore.ts:90 | `filter` keeps exactly the members that pass the test, never more often than they occur, and adds nothing |
| Seqs.FilterCounts | src/store/editorStore.ts:90 | every entry that passes the test survives exactly as often as it occurs, and no other entry survives |
| Seqs.FilterIsSubsequence | src/store/editorStore.ts:159 | `filter` keeps the surviving entries in their original order |
| Seqs.FilterKeepsAll | src/store/editorStore.ts:90 | filtering a list whose every entry passes gives the list back unchanged |
| EditorStore.Init | src/store/editorStore.ts:34-60 | the fresh store has no elements, an empty history, cursor -1, one visible unlocked "base" layer, no canvas and zoom 100%, and it satisfies the store invariant |
| EditorStore.Record | src/store/editorStore.ts:65-70 | the new list becomes the history tip under the cursor, entries up to the old cursor are kept, the redo branch is dropped, and layers, canvas and zoom are untouched |
| EditorStore.AddElement | src/store/editorStore.ts:62-72 | the element is appended after the old ones, and a snapshot is recorded |
| EditorStore.UpdateElement | src/store/editorStore.ts:74-86 | length and order are kept, exactly the records with the id are merged (a bare string never matches), an absent id leaves the list unchanged, and a snapshot is recorded |
| EditorStore.RemoveElement | src/store/editorStore.ts:88-98 | exactly the elements with the id are dropped; every other entry, bare strings included, stays as often as it occurred and in its order; an absent id leaves the list unchanged; and a snapshot is recorded |
| EditorStore.Undo | src/store/editorStore.ts:111-126 | with a canvas and cursor above 0, the cursor steps back and the elements become that snapshot; otherwise nothing changes; history, layers, canvas and zoom are never touched, and the invariant is kept |
| EditorStore.Redo | src/store/editorStore.ts:128-143 | with a canvas and cursor below the tip, the cursor steps forward and the elements become that snapshot; otherwise nothing changes; history, layers, canvas and zoom are never touched, and the invariant is kept |
| EditorStore.AddLayer | src/store/editorStore.ts:145-148 | assigns only the layer list: the layer is appended after the old ones |
| EditorStore.UpdateLayer | src/store/editorStore.ts:150-155 | length and order are kept, exactly the layers with the id are merged, and elements, history and cursor are unchanged |
| EditorStore.RemoveLayer | src/store/editorStore.ts:157-160 | no layer with the id remains; every other layer record remains as often as it occurred and in order; elements, history and cursor are unchanged |
| EditorStore.SetLayers | src/store/editorStore.ts:162 | assigns only the layer list |
| EditorStore.AttachCanvas | src/store/editorStore.ts:101 | a canvas is attached, and the elements, history, cursor, layers and zoom are kept |
| EditorStore.SetZoom | src/store/editorStore.ts:102 | assigns only the zoom |
| EditorStore.Apply | src/store/editorStore.ts:62-162 | every store call keeps the cursor in [-1, \|history\|) and the live elements equal to the snapshot under it |
| EditorStore.Run | src/store/editorStore.ts:62-162 | any sequence of store calls keeps that invariant |
| EditorStore.ReachableStatesValid | src/store/editorStore.ts:51-52 | every state reachable from the initial store keeps the invariant |
| EditorStore.UndoThenRedo | src/store/editorStore.ts:111-143 | a successful undo followed by redo restores elements, cursor and history |
| EditorStore.RedoThenUndo | src/store/editorStore.ts:128-143 | a successful redo followed by undo restores elements, cursor and history |
| EditorStore.RecordingDiscardsRedo | src/store/editorStore.ts:65 | after any element change, redo does nothing |
| EditorStore.FirstAddCannotBeUndone | src/store/editorStore.ts:113 | after adding one element to a fresh store, undo keeps that element |
| EditorStore.UndoAfterSecondAdd | src/store/editorStore.ts:111-125 | after two additions, undo goes back to the one-element snapshot |
| Scene.ActiveIndex | src/components/Tools/ElementTools.tsx:167 | `getActiveObject` is the first object with the active identity, or nothing once that object has left the canvas |
| Scene.UidIndex | src/components/Tools/ElementTools.tsx:189 | `canvas.remove` finds the first object with that identity, or reports that none has it |
| Scene.FreshUid | src/components/Tools/ElementTools.tsx:21 | a newly constructed fabric object is distinct from every object already on the canvas |
| Scene.AddAndActivate | src/components/Tools/ElementTools.tsx:35-36 | the object is appended at the end of the canvas list and becomes the active object, and the store is unchanged |
| LayerPanel.LayerKey | src/components/Layers/LayerPanel.tsx:56-57 | an object's sort key is its layer's position, and it is non-negative exactly when the object has a listed layer |
| LayerPanel.InsertByLayer | src/components/Layers/LayerPanel.tsx:55-59 | inserting into a key-ordered list keeps it ordered and adds exactly the one object |
| LayerPanel.SortByLayer | src/components/Layers/LayerPanel.tsx:55-59 | the re-sort yields a permutation of the objects whose layer keys do not decrease, so unlisted objects (key -1) come first |
| LayerPanel.InsertStable | src/components/Layers/LayerPanel.tsx:55-59 | an insertion step puts the new object ahead of the objects with its key and leaves every other key's objects in order |
| LayerPanel.SortStable | src/components/Layers/LayerPanel.tsx:55-59 | the sort is stable: the objects with any one key keep their relative order |
| LayerPanel.SortedStableUnique | src/components/Layers/LayerPanel.tsx:55-59 | two key-ordered lists with the same objects per key, in the same order, are equal, so the stable sort has a single possible result |
| LayerPanel.SortKeepsSorted | src/components/Layers/LayerPanel.tsx:55-59 | re-sorting objects that are already in layer order changes nothing |
| LayerPanel.SortKeepsKeyClasses | src/components/Layers/LayerPanel.tsx:55-59 | sorting by one layer order keeps each layer's objects in order when viewed through any other order over the same ids |
| LayerPanel.ResortComposes | src/components/Layers/LayerPanel.tsx:54-59 | sorting by one layer order and then another is the same as sorting by the second only |
| LayerPanel.UnknownIdPassesGuard | src/components/Layers/LayerPanel.tsx:42-46 | the guard as written lets an unlisted id move down in a non-empty list, with index -1 |
| LayerPanel.ArrayAt | src/components/Layers/LayerPanel.tsx:48-49 | reading a JavaScript array inside its bounds gives the entry, and outside them `undefined` |
| LayerPanel.ArrayPut | src/components/Layers/LayerPanel.tsx:49-50 | writing a JavaScript array at an index inside its bounds replaces that entry only, and at a negative index leaves every entry as it was |
| LayerPanel.MoveLayersAsWritten | src/components/Layers/LayerPanel.tsx:42-50 | the layer list as written keeps its length, and when the written guard fails it holds every layer where it was |
| LayerPanel.UnknownIdBlanksFirstLayer | src/components/Layers/LayerPanel.tsx:42-50 | the swap as written (`MoveLayersAsWritten` with the written guard `GuardAsWritten`, over the array reads and writes `ArrayAt` and `ArrayPut`), for an unlisted id moved down, leaves `undefined` where the first layer was and keeps the other layers |
| LayerPanel.AsWrittenSwapsListedLayer | src/components/Layers/LayerPanel.tsx:47-50 | for a listed id with a neighbour, the swap through `temp` exchanges exactly the two layers |
| LayerPanel.CanMoveInBounds | src/components/Layers/LayerPanel.tsx:43-50 | the corrected guard admits exactly the swaps whose two positions are inside the list, and differs from the written guard only on an unlisted id moved down |
| LayerPanel.MoveLayer | src/components/Layers/LayerPanel.tsx:40-62 | nothing changes without a canvas, at the top going up, at the bottom going down, or for an unknown id; otherwise exactly the layer and its neighbour trade places, every other position is kept, the layers and the objects are permutations of the old ones, the objects, sorted as a list the canvas owns, end up in the new layer order with each layer's objects in their old relative order (a stable sort, so by `LayerPanel.SortedStableUnique` the result is determined), and the document and the selection are untouched |
| LayerPanel.SwapPermutes | src/components/Layers/LayerPanel.tsx:47-50 | the swap keeps the same layers and the same set of ids |
| LayerPanel.MoveUpThenDown | src/components/Layers/LayerPanel.tsx:40-62 | moving a listed layer up and back down restores the layer list, and restores the whole editor when the objects were in layer order |
| LayerPanel.LayerIndexFollowsIds | src/components/Layers/LayerPanel.tsx:42 | lists with the same ids at the same positions find an id at the same position |
| LayerPanel.ToggleVisibility | src/components/Layers/LayerPanel.tsx:8-19 | nothing changes without a canvas or for an unknown id; otherwise the layer's `visible` is flipped, every object on that layer shows the new flag, and all other objects, the other layers, the document and the selection are untouched |
| LayerPanel.ToggleLock | src/components/Layers/LayerPanel.tsx:21-38 | nothing changes without a canvas or for an unknown id; otherwise the layer's `locked` is flipped, all five lock flags of every object on that layer equal the new flag, and everything else is untouched |
| LayerPanel.ToggleVisibilityTwice | src/components/Layers/LayerPanel.tsx:8-19 | with unique layer ids, toggling twice restores the layer list, and the layer's objects show the layer's original flag |
| LayerPanel.ToggleLockTwice | src/components/Layers/LayerPanel.tsx:21-38 | with unique layer ids, toggling twice restores the layer list, and the layer's objects carry the layer's original flag on all five locks |
| LayerPanel.DeleteLayer | src/components/Layers/LayerPanel.tsx:64-70 | nothing changes without a canvas; otherwise no object and no layer with the id remain, every other object and layer remains as often as it occurred and in order, the document is untouched, and the active object is kept |
| ElementTools.CenterPosition | src/components/Tools/ElementTools.tsx:10-16 | the fixed point (100, 100) without a canvas, and half the page size otherwise |
| ElementTools.AddText | src/components/Tools/ElementTools.tsx:18-48 | without a canvas nothing changes; otherwise one "Edit text" object is added 50 left and 20 above the centre and made active, and one visible unlocked "Text Layer" is appended whose id is the object's layer id; no history is recorded |
| ElementTools.AddShape | src/components/Tools/ElementTools.tsx:50-98 | without a canvas nothing changes; otherwise one 100x100 rectangle or radius-50 circle is added at the centre and made active, and one visible unlocked "Rectangle Layer" or "Circle Layer" is appended with the object's layer id |
| ElementTools.BuildGrid | src/components/Tools/ElementTools.tsx:122-150 | the nested loops add the cells row by row, and each cell's children in order |
| ElementTools.BuildTableParts | src/components/Tools/ElementTools.tsx:122-150 | the loops produce the table's children, two per cell |
| ElementTools.RowLayout | src/components/Tools/ElementTools.tsx:123-149 | a row of `c` cells has `2*c` children, with cell `j` at position `2*j` |
| ElementTools.GridLength | src/components/Tools/ElementTools.tsx:122-150 | a grid of `r` by `c` cells has `2*r*c` children |
| ElementTools.RowsInOrder | src/components/Tools/ElementTools.tsx:122-150 | the first rows of a grid are a prefix of the whole grid |
| ElementTools.GridCellAt | src/components/Tools/ElementTools.tsx:122-150 | cell `(i, j)` sits at position `2*(i*columns + j)` |
| ElementTools.TableLayout | src/components/Tools/ElementTools.tsx:122-150 | a table has exactly `2*rows*columns` children, in row-major order, each cell's background followed by its text |
| ElementTools.CellsInsideTable | src/components/Tools/ElementTools.tsx:122-145 | every cell lies within the `columns*100` by `rows*40` box; its text is inset 10 on both sides and centred vertically; header cells are the shaded, bold, size-16 "Column j+1" ones and the others are white, normal, size 14 and empty |
| ElementTools.CellsDoNotOverlap | src/components/Tools/ElementTools.tsx:125-133 | the backgrounds of two different cells do not overlap |
| ElementTools.CreateTable | src/components/Tools/ElementTools.tsx:100-163 | without a canvas nothing changes; otherwise one group holding the table's children is added, its box centred on the canvas centre, and made active, and one visible unlocked "Table Layer" is appended with its layer id |
| ElementTools.ConfirmTable | src/components/Tools/ElementTools.tsx:250-254 | confirming an open dialog creates the table with the dialog's sizes and closes the dialog; a closed dialog changes nothing |
| ElementTools.ConfirmedTableSize | src/components/Modal/TableModal.tsx:39-69 | whatever was typed into the dialog, the confirmed table has between 2 and 400 children |
| ElementTools.ToggleLock | src/components/Tools/ElementTools.tsx:165-179 | with no canvas or no active object nothing changes; otherwise all five locks of the active object become `!(lockMovementX && lockMovementY)`, and nothing else changes |
| ElementTools.ToggleLockTwice | src/components/Tools/ElementTools.tsx:165-179 | pressing the lock button twice restores an object whose five flags agreed |
| ElementTools.DeleteSelected | src/components/Tools/ElementTools.tsx:181-192 | with no canvas or no active object nothing changes; otherwise the active object leaves the canvas, every layer with its non-empty layer id leaves the list and every other layer stays as often as it occurred and in order, the document is untouched, and with unique identities nothing is active afterwards |
| Canvas.Snap | src/components/Canvas/index.tsx:28-32 | the snapped value lies on the 10-unit grid and within (v-5, v+5], so halves round up |
| Canvas.SnapUnique | src/components/Canvas/index.tsx:31-32 | the snapped value is the only grid line in (v-5, v+5] |
| Canvas.SnapIdempotent | src/components/Canvas/index.tsx:31-32 | snapping a value that is already snapped changes nothing |
| Canvas.SnapExamples | src/components/Canvas/index.tsx:31-32 | 13 snaps to 10, 15 to 20, -15 to -10 and -16 to -20 |
| Canvas.OnObjectMoving | src/components/Canvas/index.tsx:26-34 | only the dragged object's `left` and `top` are snapped, each on its own; with no target nothing changes |
| Canvas.OnObjectMovingIdempotent | src/components/Canvas/index.tsx:26-34 | a second move event without further dragging changes nothing |
| Canvas.ZoomIn | src/components/Canvas/index.tsx:48-52 | zooming in steps up by 10% when that stays within 200%, and gives exactly 200% otherwise; it always rises below the cap |
| Canvas.ZoomOut | src/components/Canvas/index.tsx:53-56 | zooming out steps down by 10% when that stays at or above 50%, and gives exactly 50% otherwise; it always falls above the floor |
| Canvas.ZoomStaysInRange | src/components/Canvas/index.tsx:48-55 | a zoom in [50%, 200%] stays there |
| Canvas.ZoomInThenOut | src/components/Canvas/index.tsx:48-55 | a step in and a step out cancel away from the limits |
| Canvas.FlipMoveLock | src/components/Canvas/index.tsx:57-65 | Ctrl+L flips each movement lock of the active object on its own, and leaves the rotation and scaling locks and everything else alone; with no active object nothing changes |
| Canvas.FlipMoveLockTwice | src/components/Canvas/index.tsx:57-65 | Ctrl+L twice restores the object |
| Canvas.ToLower | src/components/Canvas/index.tsx:39 | `toLowerCase` maps each ASCII capital to its small letter and keeps other characters |
| Canvas.HandleKeyboard | src/components/Canvas/index.tsx:37-88 | a key press starts at most one effect; undo, redo, zoom and Ctrl+L fire exactly for their key with Ctrl or Meta and without Shift; the t/r/c/b additions fire exactly for their letter, whatever the modifiers |
| Canvas.KeyboardExamples | src/components/Canvas/index.tsx:38-87 | Ctrl+Shift+Z does nothing, a plain "z" does nothing, Ctrl+"Z" undoes, and Ctrl+C adds a circle |
| Canvas.ApplyAction | src/components/Canvas/index.tsx:40-65 | zoom and Ctrl+L reach the store or the active object as described; a letter shortcut appends its bare string and records a snapshot; undo and redo change nothing when their guard fails, and otherwise always empty the canvas and move the store only when the target snapshot can be rebuilt, which leaves it as it was whenever the snapshot has an entry; the store invariant, the layers and the zoom range are kept |
| Canvas.OnKeyDown | src/components/Canvas/index.tsx:37-88 | a key press keeps the store invariant and the zoom range; t/r/c/b record their bare string whatever the modifiers; with Shift held the canvas is untouched, and a non-letter key changes nothing |
| Canvas.BareKindUndoEmptiesCanvas | src/store/editorStore.ts:111-126 | after "t" is pressed twice on a fresh store with a canvas, Ctrl+Z empties the canvas and leaves the store as it was |
| Canvas.TypeKey | src/types/index.ts:3 | the key a snapshot entry offers to `fabric[...]` is missing exactly for a bare string, and otherwise one of the four lower-case element type names |
| Canvas.RebuildableIffEmpty | src/store/editorStore.ts:114-118 | the rebuild gets past a snapshot exactly when the snapshot is empty |
| Canvas.UndoKeyThenRedoKey | src/components/Canvas/index.tsx:38-47 | with a step to undo and a canvas, Ctrl+Z always empties the canvas; it leaves the store as it was when the earlier snapshot has an entry; and only between two empty snapshots do Ctrl+Z then Ctrl+Y return the store to where it was |
| TableModal.ClampCount | src/components/Modal/TableModal.tsx:39-53 | the count is always in [1, max]; in-range input passes through; NaN, 0 and anything below 1 give 1; anything at or above the max gives the max |
| TableModal.ClampIdempotent | src/components/Modal/TableModal.tsx:39-53 | clamping a clamped count changes nothing |
| TableModal.Mount | src/components/Modal/TableModal.tsx:11-12 | the dialog starts with 3 rows and 4 columns, which are in range |
| TableModal.RowsChanged | src/components/Modal/TableModal.tsx:39 | editing rows leaves rows in [1, 20] and columns as they were |
| TableModal.ColumnsChanged | src/components/Modal/TableModal.tsx:53 | editing columns leaves columns in [1, 10] and rows as they were |
| TableModal.ConfirmClicked | src/components/Modal/TableModal.tsx:65-69 | an open dialog calls `onConfirm` with its current sizes and then `onClose`; a closed dialog renders no button |
| TableModal.ApplyEdits | src/components/Modal/TableModal.tsx:39-53 | any run of edits keeps both sizes in range |
| TableModal.ConfirmedSizesInRange | src/components/Modal/TableModal.tsx:39-69 | whatever was typed, the confirmed sizes are within 1..20 rows and 1..10 columns |
| ImageUploader.Remember | src/components/Tools/ImageUploader.tsx:31-32 | a known source leaves the list unchanged; an unseen one becomes the head, followed by the old list cut so the result has `min(\|old\| + 1, 6)` entries; the list never grows past 6 and always contains the source |
| ImageUploader.RememberKeepsDistinct | src/components/Tools/ImageUploader.tsx:31-32 | a list without repeats stays without repeats |
| ImageUploader.RememberAll | src/components/Tools/ImageUploader.tsx:31-32 | after any run of loads, the list has at most 6 entries and no repeats |
| ImageUploader.LatestIsListed | src/components/Tools/ImageUploader.tsx:31-32 | the most recently loaded image is always in the list |
| ImageUploader.AddImageToCanvas | src/components/Tools/ImageUploader.tsx:10-35 | without a canvas nothing changes; otherwise one half-scale picture at (100, 100) is added and made active, the store is untouched, and the recent list is updated |

## Left out

- Rendering, `renderAll` and fabric's internals are not modelled. This
  includes the `addWithUpdate` bounding-box recomputation of the table group
  and `centerObject`, which moves new text, shapes and images to the centre.
  Positions are the ones passed to the constructors.
- LayerPanel.MoveLayer: with the fabric 2 to 5 API that
  `import { fabric } from 'fabric'` belongs to, `getObjects()` returns a
  copy of the object list, so the program as written sorts the copy and
  leaves the canvas order unchanged. The model applies the sort to the
  canvas's own list; its re-sort clauses, and `LayerPanel.MoveUpThenDown`'s
  restoring of the objects, describe that intended order, not the program
  as written.
- ElementTools.AddText, ElementTools.AddShape, ElementTools.CreateTable,
  ImageUploader.AddImageToCanvas: src/components/Tools/ElementTools.tsx,
  src/components/Tools/ImageUploader.tsx and src/store/editorStore.ts use
  `fabric` without importing it; the only import is in
  src/components/Canvas/index.tsx:2, and it binds `fabric` in that module
  only. The model assumes a global `fabric` exists, so that these
  constructors resolve. Whether one exists depends on files outside the
  model. Without one, each of these calls throws a `ReferenceError` before
  it changes anything, and that case is not modelled. For undo and redo
  the missing binding makes no difference, because either way the rebuild
  throws after the canvas has been emptied.
- Canvas.NamesConstructor: fabric's namespace is represented only by the
  rule that its classes are capitalised. The objects a working rebuild would
  create are not modelled, because no non-empty snapshot gets that far.
- `preventDefault` is not modelled, because it only affects the browser.
- Canvas.ApplyAction: the keyboard handler reads the zoom captured when the
  canvas was mounted. The model uses the current zoom.
- ImageUploader.AddImageToCanvas: the recent-images check reads the list
  captured by the closure. The model uses the current list.
- Zoom is an integer percent, so the float drift of repeated `± 0.1` steps is
  not modelled.
- File reading, image decoding and the drop handler are asynchronous browser
  I/O (src/components/Canvas/index.tsx:93-115,
  src/components/Tools/ImageUploader.tsx:37-46). Only the effect of a loaded
  image is modelled.
- Export in src/components/Toolbar/index.tsx is not part of this model, because
  it is image and PDF I/O. Its zoom buttons repeat the clamp modelled in
  `Canvas`.
- src/components/Properties/ElementProperties.tsx and src/App.tsx are not part of
  this model. They are property widgets and layout.
- The trivial store setters `setSelectedElement`, `setIsDragging`,
  `setTemplate` and `updateInvoiceData` are not modelled. They only assign
  a field.
- Seqs.Filter: its contract bounds each survivor's count from above only;
  the exact count is the separate lemma `Seqs.FilterCounts`, which the
  removals call, so that the many proofs about the layer-key parts do not
  carry it.
- Types.MergeElement: a patch field can replace a value but cannot reset an
  optional field to `undefined`.
- Canvas.ToLower: `toLowerCase` is modelled for ASCII only. Other Unicode
  case mappings are not modelled.

## Findings

| source | as written | input that shows it | evidently intended | confidence | as-written member | corrected member |
|---|---|---|---|---|---|---|
| src/components/Layers/LayerPanel.tsx:42-46 | the guard checks `index < layers.length - 1` going down without checking that `findIndex` found the id | `moveLayer("missing", "down")` with any non-empty layer list: index -1 passes the guard, and the swap reads `newLayers[-1]` and writes `undefined` into position 0 | moving an unlisted id does nothing | high (not executed) | LayerPanel.UnknownIdBlanksFirstLayer | LayerPanel.MoveLayer |
| src/store/editorStore.ts:114-117 | `undo` removes every canvas object and then calls `new fabric[element.type](element)` for each entry of the earlier snapshot; a record's `type` is a lower-case name such as `'text'` and the bare strings the t/r/c/b shortcuts store have none, while fabric's classes are capitalised, so the call throws on the first entry before the store is updated (`redo` at lines 131-134 alike) | with a canvas, press "t" twice, then Ctrl+Z: the canvas is empty while the store still shows both entries at cursor 1 | undo steps back to the previous snapshot and shows it | high (not executed) | Canvas.BareKindUndoEmptiesCanvas | EditorStore.Undo |

=== FILE: canvas.dfy ===
/** The canvas component (src/components/Canvas/index.tsx): snap-to-grid
    while an object is dragged, the keyboard shortcuts and the zoom steps.
    Zoom is an integer percent (the store's factor 1 is 100), so a step of
    0.1 is 10. */
module Canvas {
  import opened Wrappers
  import EditorStore
  import Seqs
  import opened Types
  import opened Scene

  /** `Math.round(v / 10) * 10`, the grid being 10 units: `Math.round` is `floor(x + 1/2)`, so halves
      go up (towards +infinity). */
  function Snap(v: real): (r: real)
    ensures (r / 10.0).Floor as real == r / 10.0
    ensures v - 5.0 < r <= v + 5.0
  {
    ((v / 10.0 + 0.5).Floor as real) * 10.0
  }

  /** The snapped value is the only grid line in (v - 5, v + 5]. */
  lemma SnapUnique(v: real, k: int)
    requires v - 5.0 < k as real * 10.0 <= v + 5.0
    ensures Snap(v) == k as real * 10.0
  {
    var x := v / 10.0 + 0.5;
    var m := x.Floor;
    assert m as real <= x < m as real + 1.0;
    assert k as real <= x < k as real + 1.0 by {
      assert v == (x - 0.5) * 10.0;
    }
    assert m <= k && k <= m;
  }

  /** A coordinate already on the grid stays put. */
  lemma SnapIdempotent(v: real)
    ensures Snap(Snap(v)) == Snap(v)
  {
    var k := (Snap(v) / 10.0).Floor;
    assert k as real * 10.0 == Snap(v);
    SnapUnique(Snap(v), k);
  }

  /** Halves round up, also below zero; other values go to the nearer line. */
  lemma SnapExamples()
    ensures Snap(13.0) == 10.0 && Snap(15.0) == 20.0 && Snap(-15.0) == -10.0 && Snap(-16.0) == -20.0
  {
    SnapUnique(13.0, 1);
    SnapUnique(15.0, 2);
    SnapUnique(-15.0, -1);
    SnapUnique(-16.0, -2);
  }

  /** The `object:moving` handler: the dragged object's `left` and `top` are
      each snapped, nothing else about it or any other object changes. With
      no target, or a target no longer on the canvas, nothing happens. */
  function OnObjectMoving(e: Editor, target: Option<nat>): (r: Editor)
    ensures r.store == e.store && r.active == e.active && |r.objects| == |e.objects|
    ensures target.None? || UidIndex(e.objects, target.value).None? ==> r == e
    ensures target.Some? && UidIndex(e.objects, target.value).Some? ==>
      var k := UidIndex(e.objects, target.value).value;
      && r.objects[k] == e.objects[k].(left := Snap(e.objects[k].left), top := Snap(e.objects[k].top))
      && (forall i :: 0 <= i < |e.objects| && i != k ==> r.objects[i] == e.objects[i])
  {
    if target.None? then e
    else
      match UidIndex(e.objects, target.value)
      case None => e
      case Some(k) =>
        var o := e.objects[k];
        e.(objects := e.objects[k := o.(left := Snap(o.left), top := Snap(o.top))])
  }

  /** Moving again without dragging further changes nothing: positions stay
      on the grid. */
  lemma OnObjectMovingIdempotent(e: Editor, target: Option<nat>)
    ensures OnObjectMoving(OnObjectMoving(e, target), target) == OnObjectMoving(e, target)
  {
    var r := OnObjectMoving(e, target);
    if target.Some? && UidIndex(e.objects, target.value).Some? {
      var k := UidIndex(e.objects, target.value).value;
      assert UidIndex(r.objects, target.value) == Some(k) by {
        assert forall i :: 0 <= i < |e.objects| ==> r.objects[i].uid == e.objects[i].uid;
      }
      SnapIdempotent(e.objects[k].left);
      SnapIdempotent(e.objects[k].top);
      assert OnObjectMoving(r, target).objects == r.objects;
    }
  }

  const MinZoom := 50
  const MaxZoom := 200
  const ZoomStep := 10

  /** Ctrl + "+" or "=": one step up, at most 200%. */
  function ZoomIn(z: int): (r: int)
    ensures r <= MaxZoom && r <= z + ZoomStep
    ensures z + ZoomStep <= MaxZoom ==> r == z + ZoomStep
    ensures z + ZoomStep >= MaxZoom ==> r == MaxZoom
    ensures z < MaxZoom ==> r > z
  {
    if z + ZoomStep < MaxZoom then z + ZoomStep else MaxZoom
  }

  /** Ctrl + "-": one step down, at least 50%. */
  function ZoomOut(z: int): (r: int)
    ensures r >= MinZoom && r >= z - ZoomStep
    ensures z - ZoomStep >= MinZoom ==> r == z - ZoomStep
    ensures z - ZoomStep <= MinZoom ==> r == MinZoom
    ensures z > MinZoom ==> r < z
  {
    if z - ZoomStep > MinZoom then z - ZoomStep else MinZoom
  }

  predicate ZoomInRange(z: int) {
    MinZoom <= z <= MaxZoom
  }

  /** Zooming never leaves [50%, 200%] once inside it. */
  lemma ZoomStaysInRange(z: int)
    requires ZoomInRange(z)
    ensures ZoomInRange(ZoomIn(z)) && ZoomInRange(ZoomOut(z))
  {
  }

  /** A step in and a step out cancel away from the limits. */
  lemma ZoomInThenOut(z: int)
    requires MinZoom <= z <= MaxZoom - ZoomStep
    ensures ZoomOut(ZoomIn(z)) == z && ZoomIn(ZoomOut(z + ZoomStep)) == z + ZoomStep
  {
  }

  /** Ctrl+L: each movement lock flips on its own; rotation and scaling locks
      stay as they were. Nothing happens with no active object. */
  function FlipMoveLock(e: Editor): (r: Editor)
    ensures ActiveIndex(e).None? ==> r == e
    ensures ActiveIndex(e).Some? ==>
      var k := ActiveIndex(e).value;
      var l := e.objects[k].locks;
      && |r.objects| == |e.objects|
      && r.objects[k].locks == l.(movementX := !l.movementX, movementY := !l.movementY)
      && r.objects[k] == e.objects[k].(locks := r.objects[k].locks)
      && (forall i :: 0 <= i < |e.objects| && i != k ==> r.objects[i] == e.objects[i])
      && r.store == e.store && r.active == e.active
  {
    match ActiveIndex(e)
    case None => e
    case Some(k) =>
      var o := e.objects[k];
      e.(objects := e.objects[k := o.(locks := o.locks.(movementX := !o.locks.movementX, movementY := !o.locks.movementY))])
  }

  /** Ctrl+L twice puts the flags back; unlike the lock button, it does not
      make the five flags agree. */
  lemma FlipMoveLockTwice(e: Editor)
    ensures FlipMoveLock(FlipMoveLock(e)) == e
  {
    var r := FlipMoveLock(e);
    if ActiveIndex(e).Some? {
      var k := ActiveIndex(e).value;
      assert ActiveIndex(r) == Some(k) by {
        assert forall i :: 0 <= i < |e.objects| ==> r.objects[i].uid == e.objects[i].uid;
      }
      assert FlipMoveLock(r).objects == e.objects;
    }
  }

  // ---------------------------------------------------------------------
  // Keyboard
  // ---------------------------------------------------------------------

  /** The element a letter shortcut asks the store to add. */
  datatype NewElement = NewText | NewRect | NewCircle | NewTable

  datatype Action = Undo | Redo | ZoomInAction | ZoomOutAction | FlipMoveLockAction | AddByKey(kind: NewElement)

  /** `toLowerCase` on ASCII letters; other characters are kept. */
  function LowerChar(c: char): (r: char)
    ensures 'A' <= c <= 'Z' ==> 'a' <= r <= 'z' && r as int - c as int == 32
    ensures !('A' <= c <= 'Z') ==> r == c
  {
    if 'A' <= c <= 'Z' then (c as int + 32) as char else c
  }

  function ToLower(s: string): (r: string)
    ensures |r| == |s| && forall i :: 0 <= i < |s| ==> r[i] == LowerChar(s[i])
  {
    seq(|s|, i requires 0 <= i < |s| => LowerChar(s[i]))
  }

  /** The first `switch` of `handleKeyboard`, taken only with Ctrl or Meta
      held and Shift up. */
  function ModifierAction(key: string): Option<Action> {
    if key == "z" then Some(Undo)
    else if key == "y" then Some(Redo)
    else if key == "+" || key == "=" then Some(ZoomInAction)
    else if key == "-" then Some(ZoomOutAction)
    else if key == "l" then Some(FlipMoveLockAction)
    else None
  }

  /** The second `switch`, taken whatever modifiers are held. */
  function LetterAction(key: string): (r: Option<Action>)
    ensures r.Some? ==> r.value.AddByKey?
  {
    if key == "t" then Some(AddByKey(NewText))
    else if key == "r" then Some(AddByKey(NewRect))
    else if key == "c" then Some(AddByKey(NewCircle))
    else if key == "b" then Some(AddByKey(NewTable))
    else None
  }

  function OptionToSeq(o: Option<Action>): seq<Action> {
    if o.None? then [] else [o.value]
  }

  /** `handleKeyboard` as the list of effects it starts, in order. The two
      switches look at disjoint keys, so at most one effect is started. Only
      the letter shortcuts fire without Ctrl/Meta or with Shift. */
  function HandleKeyboard(key: string, ctrlOrMeta: bool, shift: bool): (r: seq<Action>)
    ensures |r| <= 1
    ensures var k := ToLower(key); var chord := ctrlOrMeta && !shift;
      && (r == [Undo] <==> chord && k == "z")
      && (r == [Redo] <==> chord && k == "y")
      && (r == [ZoomInAction] <==> chord && (k == "+" || k == "="))
      && (r == [ZoomOutAction] <==> chord && k == "-")
      && (r == [FlipMoveLockAction] <==> chord && k == "l")
      && (r == [AddByKey(NewText)] <==> k == "t")
      && (r == [AddByKey(NewRect)] <==> k == "r")
      && (r == [AddByKey(NewCircle)] <==> k == "c")
      && (r == [AddByKey(NewTable)] <==> k == "b")
    ensures r != [] && !r[0].AddByKey? ==> ctrlOrMeta && !shift
  {
    var k := ToLower(key);
    var first := if ctrlOrMeta && !shift then OptionToSeq(ModifierAction(k)) else [];
    var second := OptionToSeq(LetterAction(k));
    assert first == [] || second == [];
    assert first + [] == first && [] + second == second;
    first + second
  }

  /** Capital letters act like small ones, Ctrl+C adds a circle rather than
      copying, and Ctrl+Shift+Z does nothing. */
  lemma KeyboardExamples()
    ensures HandleKeyboard("Z", true, false) == [Undo]
    ensures HandleKeyboard("c", true, false) == [AddByKey(NewCircle)]
    ensures HandleKeyboard("z", true, true) == []
    ensures HandleKeyboard("z", false, false) == []
  {
    assert ToLower("Z") == "z";
    assert ToLower("c") == "c";
    assert ToLower("z") == "z";
  }

  /** The string a letter shortcut hands to `addElement`. */
  function KindString(k: NewElement): string {
    match k
    case NewText => "text"
    case NewRect => "rect"
    case NewCircle => "circle"
    case NewTable => "table"
  }

  /** The key `new fabric[element.type](element)` looks up for one snapshot
      entry: a record's type name, in lower case as the element types are
      declared, and nothing for a bare string, which has no `type`. */
  function TypeKey(el: Element): (k: Option<string>)
    ensures el.KindName? <==> k.None?
    ensures k.Some? ==> k.value in {"text", "image", "shape", "field"}
  {
    match el
    case KindName(_) => None
    case Element(_, kind, _, _, _, _, _, _, _, _) =>
      Some(match kind
        case TextElement => "text"
        case ImageElement => "image"
        case ShapeElement => "shape"
        case FieldElement => "field")
  }

  /** Whether a key names a constructor of the fabric namespace, whose
      classes are capitalised (`IText`, `Rect`, `Circle`, `Group`, `Image`);
      a missing key names none and `new` on the `undefined` it finds throws. */
  predicate NamesConstructor(key: Option<string>) {
    key.Some? && |key.value| > 0 && 'A' <= key.value[0] <= 'Z'
  }

  /** The rebuild gets past every entry of the snapshot. */
  predicate Rebuildable(snapshot: seq<Element>) {
    forall i :: 0 <= i < |snapshot| ==> NamesConstructor(TypeKey(snapshot[i]))
  }

  /** No entry, record or bare string, finds a constructor: only the empty
      snapshot can be rebuilt, and any other throws at its first entry. */
  lemma RebuildableIffEmpty(snapshot: seq<Element>)
    ensures Rebuildable(snapshot) <==> snapshot == []
  {
    if snapshot != [] {
      assert !NamesConstructor(TypeKey(snapshot[0]));
    }
  }

  /** `undo`'s guard: a step to take back, and a canvas. */
  predicate UndoPasses(s: EditorStore.State) {
    s.historyIndex > 0 && s.hasCanvas
  }

  /** `redo`'s guard: a step to go forward to, and a canvas. */
  predicate RedoPasses(s: EditorStore.State) {
    s.historyIndex < |s.history| - 1 && s.hasCanvas
  }

  /** `undo` passes its guard and the snapshot it steps back to cannot be
      rebuilt. */
  predicate UndoThrows(s: EditorStore.State) {
    UndoPasses(s) && s.historyIndex <= |s.history| && !Rebuildable(s.history[s.historyIndex - 1])
  }

  /** `redo` passes its guard and the snapshot it steps forward to cannot be
      rebuilt. */
  predicate RedoThrows(s: EditorStore.State) {
    RedoPasses(s) && -1 <= s.historyIndex && !Rebuildable(s.history[s.historyIndex + 1])
  }

  /** Carries out one effect. Zoom goes to the store and Ctrl+L to the active
      object. A letter shortcut hands its bare string to `addElement`, which
      appends it and records a snapshot like any element. Undo and redo,
      once their guard passes, remove every object from the canvas and then
      rebuild the snapshot they move to; the rebuild throws on any entry, so
      the store moves only to an empty snapshot and the canvas is always
      left empty. */
  function ApplyAction(e: Editor, a: Action): (r: Editor)
    requires EditorStore.Valid(e.store)
    ensures EditorStore.Valid(r.store)
    ensures r.store.layers == e.store.layers
    ensures !a.AddByKey? ==> r.store.history == e.store.history
    ensures a.Undo? && !UndoPasses(e.store) ==> r == e
    ensures a.Undo? && UndoPasses(e.store) ==> r.objects == [] && r.active == e.active
    ensures a.Undo? && UndoThrows(e.store) ==> r.store == e.store
    ensures a.Undo? && UndoPasses(e.store) && !UndoThrows(e.store) ==> r.store == EditorStore.Undo(e.store)
    ensures a.Redo? && !RedoPasses(e.store) ==> r == e
    ensures a.Redo? && RedoPasses(e.store) ==> r.objects == [] && r.active == e.active
    ensures a.Redo? && RedoThrows(e.store) ==> r.store == e.store
    ensures a.Redo? && RedoPasses(e.store) && !RedoThrows(e.store) ==> r.store == EditorStore.Redo(e.store)
    ensures a.ZoomInAction? || a.ZoomOutAction? ==>
      && r.objects == e.objects && r.active == e.active
      && r.store == e.store.(zoom := r.store.zoom)
      && (a.ZoomInAction? ==> r.store.zoom == ZoomIn(e.store.zoom))
      && (a.ZoomOutAction? ==> r.store.zoom == ZoomOut(e.store.zoom))
    ensures a.FlipMoveLockAction? ==> r == FlipMoveLock(e)
    ensures a.AddByKey? ==>
      && r.objects == e.objects && r.active == e.active
      && EditorStore.RecordedFrom(e.store, r.store, e.store.elements + [KindName(KindString(a.kind))])
    ensures ZoomInRange(e.store.zoom) ==> ZoomInRange(r.store.zoom)
  {
    match a
    case Undo =>
      if !UndoPasses(e.store) then e
      else if UndoThrows(e.store) then e.(objects := [])
      else e.(store := EditorStore.Undo(e.store), objects := [])
    case Redo =>
      if !RedoPasses(e.store) then e
      else if RedoThrows(e.store) then e.(objects := [])
      else e.(store := EditorStore.Redo(e.store), objects := [])
    case ZoomInAction => e.(store := EditorStore.SetZoom(e.store, ZoomIn(e.store.zoom)))
    case ZoomOutAction => e.(store := EditorStore.SetZoom(e.store, ZoomOut(e.store.zoom)))
    case FlipMoveLockAction => FlipMoveLock(e)
    case AddByKey(k) => e.(store := EditorStore.AddElement(e.store, KindName(KindString(k))))
  }

  /** A whole key press: its effects, in order. With Shift held only the
      letter shortcuts fire, so the canvas is untouched and the store changes
      only by the letter's `addElement`. */
  function OnKeyDown(e: Editor, key: string, ctrlOrMeta: bool, shift: bool): (r: Editor)
    requires EditorStore.Valid(e.store)
    ensures EditorStore.Valid(r.store)
    ensures ZoomInRange(e.store.zoom) ==> ZoomInRange(r.store.zoom)
    ensures shift ==> r.objects == e.objects && r.active == e.active
    ensures shift && LetterAction(ToLower(key)).None? ==> r == e
    ensures var l := LetterAction(ToLower(key));
      l.Some? ==> EditorStore.RecordedFrom(e.store, r.store, e.store.elements + [KindName(KindString(l.value.kind))])
  {
    var actions := HandleKeyboard(key, ctrlOrMeta, shift);
    if actions == [] then e else ApplyAction(e, actions[0])
  }

  /** With a step to undo and a canvas, Ctrl+Z always empties the canvas.
      When the earlier snapshot holds any entry the rebuild throws and the
      store stays where it was; only between two empty snapshots do Ctrl+Z
      then Ctrl+Y bring the store back, the canvas still empty. */
  lemma UndoKeyThenRedoKey(e: Editor)
    requires EditorStore.Valid(e.store) && e.store.hasCanvas && e.store.historyIndex > 0
    ensures OnKeyDown(e, "z", true, false).objects == []
    ensures var h := e.store.history; var i := e.store.historyIndex;
      h[i - 1] != [] ==> OnKeyDown(e, "z", true, false) == e.(objects := [])
    ensures var h := e.store.history; var i := e.store.historyIndex;
      h[i - 1] == [] && h[i] == [] ==>
        OnKeyDown(OnKeyDown(e, "z", true, false), "y", true, false) == e.(objects := [])
  {
    assert ToLower("z") == "z" && ToLower("y") == "y";
    var h := e.store.history;
    var i := e.store.historyIndex;
    RebuildableIffEmpty(h[i - 1]);
    RebuildableIffEmpty(h[i]);
    EditorStore.UndoThenRedo(e.store);
  }

  /** Pressing "t" twice on a fresh store with a canvas records the two bare
      strings; Ctrl+Z then empties the canvas and leaves the store as it was,
      so the step cannot be undone. */
  lemma BareKindUndoEmptiesCanvas(e: Editor)
    requires e.store == EditorStore.AttachCanvas(EditorStore.Init())
    ensures var e2 := OnKeyDown(OnKeyDown(e, "t", false, false), "t", false, false);
      && e2.store.elements == [KindName("text"), KindName("text")]
      && e2.store.historyIndex == 1
      && OnKeyDown(e2, "z", true, false) == e2.(objects := [])
  {
    assert ToLower("t") == "t" && ToLower("z") == "z";
    assert HandleKeyboard("t", false, false) == [AddByKey(NewText)];
    var e1 := OnKeyDown(e, "t", false, false);
    assert e1.store == EditorStore.AddElement(e.store, KindName("text"));
    assert e1.store.history == [[KindName("text")]];
    assert e1.store.historyIndex == 0 && e1.store.elements == [KindName("text")];
    var e2 := OnKeyDown(e1, "t", false, false);
    assert e2.store == EditorStore.AddElement(e1.store, KindName("text"));
    assert Seqs.Take(e1.store.history, 1) == e1.store.history;
    assert e2.store.elements == [KindName("text")] + [KindName("text")];
    assert |e2.store.history| == 2 && e2.store.history[..1] == e1.store.history[..1];
    assert e2.store.history[0] == [KindName("text")];
    assert UndoThrows(e2.store);
  }
}

=== FILE: editor_store.dfy ===
/** The editor store (src/store/editorStore.ts): the element list, its linear
    undo history of full snapshots with a cursor, and the layer list. The
    canvas itself is reduced to whether one is attached; zoom is kept in
    integer percent. */
module EditorStore {
  import opened Wrappers
  import opened Types
  import Seqs

  datatype State = State(
    elements: seq<Element>,
    history: seq<seq<Element>>,
    historyIndex: int,
    layers: seq<Layer>,
    hasCanvas: bool,
    zoom: int)

  const BaseLayer := Layer("base", "Base Layer", true, false)

  /** The cursor names a snapshot, or is -1 before the first one. */
  ghost predicate CursorInRange(s: State) {
    -1 <= s.historyIndex < |s.history|
  }

  /** The invariant every store state keeps: the cursor is in range and, once
      a snapshot exists, the live elements are the snapshot under the cursor. */
  ghost predicate Valid(s: State) {
    && CursorInRange(s)
    && (s.historyIndex >= 0 ==> s.elements == s.history[s.historyIndex])
  }

  /** The store as created: nothing placed, no snapshot, the cursor before
      the first snapshot, one visible unlocked base layer, no canvas yet and
      zoom 1 (100 percent). */
  function Init(): (s: State)
    ensures s.elements == [] && s.history == [] && s.historyIndex == -1
    ensures |s.layers| == 1 && s.layers[0].id == "base"
    ensures s.layers[0].visible && !s.layers[0].locked
    ensures !s.hasCanvas && s.zoom == 100
    ensures Valid(s)
  {
    State([], [], -1, [BaseLayer], false, 100)
  }

  /** What every element mutation promises: `r` shows `snapshot`, which is the
      new tip of the history; the entries up to the old cursor are kept and
      everything after it (the redo branch) is gone; the layers, canvas and
      zoom are untouched. */
  ghost predicate RecordedFrom(s: State, r: State, snapshot: seq<Element>) {
    && r.elements == snapshot
    && 0 <= r.historyIndex == |r.history| - 1
    && r.history[r.historyIndex] == snapshot
    && Valid(r)
    && (CursorInRange(s) ==>
          && |r.history| == s.historyIndex + 2
          && r.history[..s.historyIndex + 1] == s.history[..s.historyIndex + 1])
    && r.layers == s.layers && r.hasCanvas == s.hasCanvas && r.zoom == s.zoom
  }

  /** The step shared by the three element mutations: keep
      `history.slice(0, historyIndex + 1)`, push the new list, and move the
      cursor to it. */
  function Record(s: State, snapshot: seq<Element>): (r: State)
    ensures RecordedFrom(s, r, snapshot)
  {
    var newHistory := Seqs.Take(s.history, s.historyIndex + 1) + [snapshot];
    s.(elements := snapshot, history := newHistory, historyIndex := |newHistory| - 1)
  }

  /** `addElement`: the element goes on the end of the list. */
  function AddElement(s: State, el: Element): (r: State)
    ensures |r.elements| == |s.elements| + 1
    ensures r.elements[..|s.elements|] == s.elements && r.elements[|s.elements|] == el
    ensures RecordedFrom(s, r, r.elements)
  {
    Record(s, s.elements + [el])
  }

  /** `elements.map(el => el.id === id ? { ...el, ...updates } : el)`. */
  function UpdateMatching(els: seq<Element>, id: string, p: ElementPatch): seq<Element> {
    seq(|els|, i requires 0 <= i < |els| => if HasId(els[i], id) then MergeElement(els[i], p) else els[i])
  }

  /** `updateElement`: same length and order; exactly the elements with the id
      get the update; a snapshot is recorded even when no element has it. */
  function UpdateElement(s: State, id: string, p: ElementPatch): (r: State)
    ensures |r.elements| == |s.elements|
    ensures forall i :: 0 <= i < |s.elements| && !HasId(s.elements[i], id) ==> r.elements[i] == s.elements[i]
    ensures forall i :: 0 <= i < |s.elements| && HasId(s.elements[i], id) ==> r.elements[i] == MergeElement(s.elements[i], p)
    ensures (forall i :: 0 <= i < |s.elements| ==> !HasId(s.elements[i], id)) ==> r.elements == s.elements
    ensures RecordedFrom(s, r, r.elements)
  {
    Record(s, UpdateMatching(s.elements, id, p))
  }

  /** `removeElement`: exactly the elements with the id go, every other entry
      stays as often as it was there and in order (bare strings have no id, so
      they always stay); a snapshot is recorded even when no element has it. */
  function RemoveElement(s: State, id: string): (r: State)
    ensures forall el :: multiset(r.elements)[el] == if HasId(el, id) then 0 else multiset(s.elements)[el]
    ensures Seqs.SubsequenceOf(r.elements, s.elements)
    ensures (forall i :: 0 <= i < |s.elements| ==> !HasId(s.elements[i], id)) ==> r.elements == s.elements
    ensures RecordedFrom(s, r, r.elements)
  {
    var p := (el: Element) => !HasId(el, id);
    Seqs.FilterIsSubsequence(s.elements, p);
    Seqs.FilterCounts(s.elements, p);
    if forall i :: 0 <= i < |s.elements| ==> !HasId(s.elements[i], id) then
      Seqs.FilterKeepsAll(s.elements, p);
      Record(s, Seqs.Filter(s.elements, p))
    else
      Record(s, Seqs.Filter(s.elements, p))
  }

  /** `undo`: with a canvas and a snapshot before the cursor, step back to it;
      otherwise nothing happens. The history itself never changes, and the
      first snapshot (cursor 0) cannot be stepped back from. */
  function Undo(s: State): (r: State)
    requires CursorInRange(s)
    ensures r.history == s.history && r.layers == s.layers
    ensures r.hasCanvas == s.hasCanvas && r.zoom == s.zoom
    ensures CursorInRange(r) && (Valid(s) ==> Valid(r))
    ensures s.historyIndex <= 0 || !s.hasCanvas ==> r == s
    ensures s.historyIndex > 0 && s.hasCanvas ==>
      r.historyIndex == s.historyIndex - 1 && r.elements == s.history[r.historyIndex]
    ensures s.historyIndex >= 0 ==> r.historyIndex >= 0
  {
    if s.historyIndex > 0 && s.hasCanvas then
      s.(elements := s.history[s.historyIndex - 1], historyIndex := s.historyIndex - 1)
    else s
  }

  /** `redo`: with a canvas and a snapshot after the cursor, step forward to
      it; at the tip nothing happens. The history itself never changes. */
  function Redo(s: State): (r: State)
    requires CursorInRange(s)
    ensures r.history == s.history && r.layers == s.layers
    ensures r.hasCanvas == s.hasCanvas && r.zoom == s.zoom
    ensures CursorInRange(r) && (Valid(s) ==> Valid(r))
    ensures s.historyIndex >= |s.history| - 1 || !s.hasCanvas ==> r == s
    ensures s.historyIndex < |s.history| - 1 && s.hasCanvas ==>
      r.historyIndex == s.historyIndex + 1 && r.elements == s.history[r.historyIndex]
  {
    if s.historyIndex < |s.history| - 1 && s.hasCanvas then
      s.(elements := s.history[s.historyIndex + 1], historyIndex := s.historyIndex + 1)
    else s
  }

  /** The fields a layer-list operation must leave alone. */
  ghost predicate DocumentUnchanged(s: State, r: State) {
    r.elements == s.elements && r.history == s.history && r.historyIndex == s.historyIndex
    && r.hasCanvas == s.hasCanvas && r.zoom == s.zoom
  }

  /** `addLayer`: the layer goes on the end; nothing else moves. */
  function AddLayer(s: State, l: Layer): (r: State)
    ensures |r.layers| == |s.layers| + 1
    ensures r.layers[..|s.layers|] == s.layers && r.layers[|s.layers|] == l
    ensures DocumentUnchanged(s, r)
  {
    s.(layers := s.layers + [l])
  }

  /** `layers.map(layer => layer.id === id ? { ...layer, ...updates } : layer)`. */
  function UpdateMatchingLayers(layers: seq<Layer>, id: string, p: LayerPatch): seq<Layer> {
    seq(|layers|, i requires 0 <= i < |layers| => if layers[i].id == id then MergeLayer(layers[i], p) else layers[i])
  }

  /** `updateLayer`: same length and order; exactly the layers with the id get
      the update. */
  function UpdateLayer(s: State, id: string, p: LayerPatch): (r: State)
    ensures |r.layers| == |s.layers|
    ensures forall i :: 0 <= i < |s.layers| && s.layers[i].id != id ==> r.layers[i] == s.layers[i]
    ensures forall i :: 0 <= i < |s.layers| && s.layers[i].id == id ==> r.layers[i] == MergeLayer(s.layers[i], p)
    ensures DocumentUnchanged(s, r)
  {
    s.(layers := UpdateMatchingLayers(s.layers, id, p))
  }

  /** `removeLayer`: no layer with the id is left; every other layer record
      stays as often as it was there, in order. */
  function RemoveLayer(s: State, id: string): (r: State)
    ensures forall l :: l in r.layers <==> l in s.layers && l.id != id
    ensures forall l :: multiset(r.layers)[l] == if l.id == id then 0 else multiset(s.layers)[l]
    ensures !HasLayer(r.layers, id)
    ensures Seqs.SubsequenceOf(r.layers, s.layers)
    ensures DocumentUnchanged(s, r)
  {
    var p := (l: Layer) => l.id != id;
    Seqs.FilterIsSubsequence(s.layers, p);
    Seqs.FilterCounts(s.layers, p);
    var kept := Seqs.Filter(s.layers, p);
    assert forall k :: 0 <= k < |kept| ==> kept[k] in kept;
    s.(layers := kept)
  }

  /** `setLayers`: the list is replaced wholesale. */
  function SetLayers(s: State, layers: seq<Layer>): (r: State)
    ensures r.layers == layers && DocumentUnchanged(s, r)
  {
    s.(layers := layers)
  }

  /** `setCanvas`: the canvas component hands over its canvas. */
  function AttachCanvas(s: State): (r: State)
    ensures r.hasCanvas && r.layers == s.layers && r.elements == s.elements
    ensures r.history == s.history && r.historyIndex == s.historyIndex && r.zoom == s.zoom
  {
    s.(hasCanvas := true)
  }

  /** `setZoom`, in percent. */
  function SetZoom(s: State, zoom: int): (r: State)
    ensures r.zoom == zoom && r.layers == s.layers && r.elements == s.elements
    ensures r.history == s.history && r.historyIndex == s.historyIndex && r.hasCanvas == s.hasCanvas
  {
    s.(zoom := zoom)
  }

  /** One call on the store. */
  datatype Command =
    | AddElementCmd(el: Element)
    | UpdateElementCmd(id: string, patch: ElementPatch)
    | RemoveElementCmd(id: string)
    | UndoCmd
    | RedoCmd
    | AddLayerCmd(layer: Layer)
    | UpdateLayerCmd(layerId: string, layerPatch: LayerPatch)
    | RemoveLayerCmd(layerId: string)
    | SetLayersCmd(layers: seq<Layer>)
    | SetCanvasCmd
    | SetZoomCmd(zoom: int)

  function Apply(s: State, c: Command): (r: State)
    requires Valid(s)
    ensures Valid(r)
  {
    match c
    case AddElementCmd(el) => AddElement(s, el)
    case UpdateElementCmd(id, p) => UpdateElement(s, id, p)
    case RemoveElementCmd(id) => RemoveElement(s, id)
    case UndoCmd => Undo(s)
    case RedoCmd => Redo(s)
    case AddLayerCmd(l) => AddLayer(s, l)
    case UpdateLayerCmd(id, p) => UpdateLayer(s, id, p)
    case RemoveLayerCmd(id) => RemoveLayer(s, id)
    case SetLayersCmd(ls) => SetLayers(s, ls)
    case SetCanvasCmd => AttachCanvas(s)
    case SetZoomCmd(z) => SetZoom(s, z)
  }

  /** The store after a sequence of calls; every state on the way is Valid,
      so the cursor never leaves [-1, |history|). */
  function Run(s: State, cmds: seq<Command>): (r: State)
    requires Valid(s)
    ensures Valid(r)
    ensures -1 <= r.historyIndex < |r.history|
    decreases |cmds|
  {
    if cmds == [] then s else Run(Apply(s, cmds[0]), cmds[1..])
  }

  /** Every state reachable from the initial store keeps the invariant. */
  lemma ReachableStatesValid(cmds: seq<Command>)
    ensures Valid(Run(Init(), cmds))
    ensures -1 <= Run(Init(), cmds).historyIndex < |Run(Init(), cmds).history|
  {
  }

  /** A successful undo is reversed by redo: elements, cursor and history are
      all as before. */
  lemma UndoThenRedo(s: State)
    requires Valid(s) && s.hasCanvas && s.historyIndex > 0
    ensures Redo(Undo(s)) == s
  {
  }

  /** A successful redo from a recorded snapshot is reversed by undo. */
  lemma RedoThenUndo(s: State)
    requires Valid(s) && s.hasCanvas && 0 <= s.historyIndex < |s.history| - 1
    ensures Undo(Redo(s)) == s
  {
  }

  /** After any element mutation the cursor is at the tip, so redo is a no-op:
      the branch that undo had left is gone for good. */
  lemma RecordingDiscardsRedo(s: State, snapshot: seq<Element>)
    ensures Redo(Record(s, snapshot)) == Record(s, snapshot)
  {
  }

  /** The first snapshot can never be undone: adding one element to a fresh
      store with a canvas and then undoing leaves the element in place. */
  lemma FirstAddCannotBeUndone(el: Element)
    ensures Undo(AddElement(AttachCanvas(Init()), el)).elements == [el]
  {
  }

  /** Undo after two additions goes back to the first addition's snapshot. */
  lemma UndoAfterSecondAdd(a: Element, b: Element)
    ensures Undo(AddElement(AddElement(AttachCanvas(Init()), a), b)).elements == [a]
  {
  }
}

=== FILE: element_tools.dfy ===
/** The element tools (src/components/Tools/ElementTools.tsx): adding text,
    shapes and tables to the canvas, each with one new layer, and locking or
    deleting the active object. `Date.now()` in the generated layer ids is an
    abstract `stamp`. These tools work on the canvas and the layer list only;
    none of them records a history snapshot. */
module ElementTools {
  import opened Wrappers
  import opened Types
  import EditorStore
  import opened Scene
  import TableModal
  import Seqs

  datatype Point = Point(x: real, y: real)

  /** `getCenterPosition`: the middle of the canvas, or (100, 100) when there
      is none. */
  function CenterPosition(e: Editor): (p: Point)
    ensures !e.store.hasCanvas ==> p == Point(100.0, 100.0)
    ensures e.store.hasCanvas ==> 2.0 * p.x == PageWidth && 2.0 * p.y == PageHeight
  {
    if !e.store.hasCanvas then Point(100.0, 100.0) else Point(PageWidth / 2.0, PageHeight / 2.0)
  }

  /** What every add tool promises: with a canvas, exactly one object is
      appended and made active, and exactly one visible, unlocked layer named
      `name` is appended whose id is the object's `data.layerId`; elements and
      history are untouched. Without a canvas nothing changes. */
  ghost predicate AddsOneLayer(e: Editor, r: Editor, name: string, layerId: string) {
    if !e.store.hasCanvas then r == e
    else
      && |r.objects| == |e.objects| + 1 && r.objects[..|e.objects|] == e.objects
      && (var o := r.objects[|e.objects|];
          && LayerIdOf(o) == Some(layerId) && r.active == Some(o.uid)
          && o.visible && o.locks == AllLocks(false)
          && (forall i :: 0 <= i < |e.objects| ==> e.objects[i].uid != o.uid))
      && |r.store.layers| == |e.store.layers| + 1 && r.store.layers[..|e.store.layers|] == e.store.layers
      && r.store.layers[|e.store.layers|] == Layer(layerId, name, true, false)
      && EditorStore.DocumentUnchanged(e.store, r.store)
  }

  /** Add `o` to the canvas, make it active and list its layer. */
  function AddWithLayer(e: Editor, o: CanvasObject, layer: Layer): Editor {
    var e1 := AddAndActivate(e, o);
    e1.(store := EditorStore.AddLayer(e1.store, layer))
  }

  /** `addText`: "Edit text" in 20px Arial, black, placed at the centre
      shifted by (-50, -20), on a new "Text Layer". */
  function AddText(e: Editor, stamp: string): (r: Editor)
    ensures AddsOneLayer(e, r, "Text Layer", "text-" + stamp)
    ensures e.store.hasCanvas ==>
      var o := r.objects[|e.objects|];
      var c := CenterPosition(e);
      o.shape == TextBox("Edit text", 20, "Arial", "#000000") && o.left == c.x - 50.0 && o.top == c.y - 20.0
  {
    if !e.store.hasCanvas then e
    else
      var c := CenterPosition(e);
      var layerId := "text-" + stamp;
      var o := NewObject(FreshUid(e.objects), TextBox("Edit text", 20, "Arial", "#000000"),
                         c.x - 50.0, c.y - 20.0, Some(ObjectData(layerId, "text")));
      AddWithLayer(e, o, Layer(layerId, "Text Layer", true, false))
  }

  datatype ShapeKind = Rect | Circle

  function ShapeTag(kind: ShapeKind): string {
    if kind.Rect? then "rect" else "circle"
  }

  /** `addShape`: a grey 100x100 rectangle or a radius-50 circle at the
      centre, on a new "Rectangle Layer" or "Circle Layer". */
  function AddShape(e: Editor, kind: ShapeKind, stamp: string): (r: Editor)
    ensures AddsOneLayer(e, r, if kind.Rect? then "Rectangle Layer" else "Circle Layer", ShapeTag(kind) + "-" + stamp)
    ensures e.store.hasCanvas ==>
      var o := r.objects[|e.objects|];
      && o.left == CenterPosition(e).x && o.top == CenterPosition(e).y
      && (kind.Rect? ==> o.shape == Rectangle(100, 100, "#e2e8f0", "#64748b", 1))
      && (kind.Circle? ==> o.shape == CircleShape(50, "#e2e8f0", "#64748b", 1))
  {
    if !e.store.hasCanvas then e
    else
      var c := CenterPosition(e);
      var layerId := ShapeTag(kind) + "-" + stamp;
      var shape := if kind.Rect? then Rectangle(100, 100, "#e2e8f0", "#64748b", 1)
                   else CircleShape(50, "#e2e8f0", "#64748b", 1);
      var o := NewObject(FreshUid(e.objects), shape, c.x, c.y, Some(ObjectData(layerId, ShapeTag(kind))));
      AddWithLayer(e, o, Layer(layerId, if kind.Rect? then "Rectangle Layer" else "Circle Layer", true, false))
  }

  // ---------------------------------------------------------------------
  // Tables
  // ---------------------------------------------------------------------

  const CellWidth := 100
  const CellHeight := 40
  const CellPadding := 10
  const HeaderFill := "#f1f5f9"
  const BodyFill := "#ffffff"
  const CellStroke := "#64748b"

  /** Decimal digits of `n`, as a template literal prints it. */
  function NatToString(n: nat): (s: string)
    ensures |s| > 0
    decreases n
  {
    var digit := ["0", "1", "2", "3", "4", "5", "6", "7", "8", "9"][n % 10];
    if n < 10 then digit else NatToString(n / 10) + digit
  }

  /** The background rectangle of cell (i, j). */
  function CellBackgroundAt(i: int, j: int): TablePart {
    CellBackground(j * CellWidth, i * CellHeight, CellWidth, CellHeight,
                   if i == 0 then HeaderFill else BodyFill, CellStroke, 1)
  }

  /** The text of cell (i, j): "Column j+1" in bold 16px on the header row,
      empty 14px normal text below it. */
  function CellTextAt(i: int, j: int): TablePart {
    CellText(if i == 0 && j >= 0 then "Column " + NatToString(j + 1) else "",
             j * CellWidth + CellPadding, i * CellHeight + (CellHeight - 20) / 2,
             if i == 0 then 16 else 14, "Arial", if i == 0 then "bold" else "normal",
             if i == 0 then "#1e293b" else "#475569", CellWidth - 2 * CellPadding)
  }

  /** The two children cell (i, j) adds to the group, in order. */
  function Cell(i: int, j: int): seq<TablePart> {
    [CellBackgroundAt(i, j), CellTextAt(i, j)]
  }

  /** The first `columns` cells of row `i`, cell (i, j) contributing the
      children `cell(i, j)`. */
  function RowOf<T>(cell: (int, int) -> seq<T>, i: int, columns: int): seq<T>
    decreases columns
  {
    if columns <= 0 then [] else RowOf(cell, i, columns - 1) + cell(i, columns - 1)
  }

  /** The first `rows` rows of a grid, in row-major order. */
  function GridOf<T>(cell: (int, int) -> seq<T>, rows: int, columns: int): seq<T>
    decreases rows
  {
    if rows <= 0 then [] else GridOf(cell, rows - 1, columns) + RowOf(cell, rows - 1, columns)
  }

  /** The children of a `rows` x `columns` table. */
  function TableParts(rows: int, columns: int): seq<TablePart> {
    GridOf(Cell, rows, columns)
  }

  /** The nested loops of `createTable`: row by row, cell by cell, each
      cell's children are added to the group. */
  method BuildGrid<T>(cell: (int, int) -> seq<T>, rows: int, columns: int) returns (parts: seq<T>)
    ensures parts == GridOf(cell, rows, columns)
  {
    parts := [];
    var i := 0;
    while i < rows
      invariant 0 <= i && (i <= rows || i == 0)
      invariant parts == GridOf(cell, i, columns)
    {
      var j := 0;
      while j < columns
        invariant 0 <= j && (j <= columns || j == 0)
        invariant parts == GridOf(cell, i, columns) + RowOf(cell, i, j)
      {
        parts := parts + cell(i, j);
        j := j + 1;
      }
      i := i + 1;
    }
  }

  /** `createTable`'s loops with its cells: a background, then a text. */
  method BuildTableParts(rows: int, columns: int) returns (parts: seq<TablePart>)
    ensures parts == TableParts(rows, columns)
    ensures rows >= 0 && columns >= 0 ==> |parts| == 2 * (rows * columns)
  {
    parts := BuildGrid(Cell, rows, columns);
    if rows >= 0 && columns >= 0 {
      TableLayout(rows, columns);
    }
  }

  /** Every cell contributes two children. */
  ghost predicate Pairs<T>(cell: (int, int) -> seq<T>) {
    forall i, j :: |cell(i, j)| == 2
  }

  /** A row of `columns` cells has two children per cell, cell j at 2*j. */
  lemma {:induction false} RowLayout<T>(cell: (int, int) -> seq<T>, i: int, columns: int)
    requires Pairs(cell) && columns >= 0
    ensures |RowOf(cell, i, columns)| == 2 * columns
    ensures forall j :: 0 <= j < columns ==> RowOf(cell, i, columns)[2 * j..2 * j + 2] == cell(i, j)
    decreases columns
  {
    if columns > 0 {
      RowLayout(cell, i, columns - 1);
      var prev := RowOf(cell, i, columns - 1);
      var row := RowOf(cell, i, columns);
      assert row == prev + cell(i, columns - 1);
      forall j | 0 <= j < columns ensures row[2 * j..2 * j + 2] == cell(i, j) {
        if j < columns - 1 {
          assert row[2 * j..2 * j + 2] == prev[2 * j..2 * j + 2];
        } else {
          assert row[2 * j..2 * j + 2] == row[|prev|..];
        }
      }
    }
  }

  /** A grid has two children per cell. */
  lemma {:induction false} GridLength<T>(cell: (int, int) -> seq<T>, rows: int, columns: int)
    requires Pairs(cell) && rows >= 0 && columns >= 0
    ensures |GridOf(cell, rows, columns)| == 2 * (rows * columns)
    decreases rows
  {
    if rows > 0 {
      GridLength(cell, rows - 1, columns);
      RowLayout(cell, rows - 1, columns);
      assert rows * columns == (rows - 1) * columns + columns;
    }
  }

  /** The rows of a grid come in order: the first `i + 1` rows are a prefix. */
  lemma {:induction false} RowsInOrder<T>(cell: (int, int) -> seq<T>, rows: int, columns: int, i: int)
    requires 0 <= i < rows
    ensures |GridOf(cell, i + 1, columns)| <= |GridOf(cell, rows, columns)|
    ensures GridOf(cell, rows, columns)[..|GridOf(cell, i + 1, columns)|] == GridOf(cell, i, columns) + RowOf(cell, i, columns)
    decreases rows
  {
    if i < rows - 1 {
      RowsInOrder(cell, rows - 1, columns, i);
      var prev := GridOf(cell, rows - 1, columns);
      assert GridOf(cell, rows, columns)[..|prev|] == prev;
    }
  }

  /** `cell` occupies positions n and n + 1 of `parts`. */
  predicate CellAtOffset<T(==)>(parts: seq<T>, n: int, cell: seq<T>) {
    0 <= n && n + 2 <= |parts| && parts[n..n + 2] == cell
  }

  /** Cell (i, j) of a grid sits at 2*(i*columns + j). */
  lemma GridCellAt<T>(cell: (int, int) -> seq<T>, rows: int, columns: int, i: int, j: int)
    requires Pairs(cell) && 0 <= i < rows && 0 <= j < columns
    ensures CellAtOffset(GridOf(cell, rows, columns), 2 * (i * columns + j), cell(i, j))
  {
    RowsInOrder(cell, rows, columns, i);
    GridLength(cell, i, columns);
    RowLayout(cell, i, columns);
    var before := GridOf(cell, i, columns);
    var row := RowOf(cell, i, columns);
    assert |GridOf(cell, i + 1, columns)| == |before| + |row|;
    PairInPrefix(GridOf(cell, rows, columns), before, row, j);
  }

  /** A pair at `2*j` within `row` sits at `|before| + 2*j` of any list that
      starts with `before + row`. */
  lemma PairInPrefix<T>(all: seq<T>, before: seq<T>, row: seq<T>, j: int)
    requires |before| + |row| <= |all| && all[..|before| + |row|] == before + row
    requires 0 <= j && 2 * j + 2 <= |row|
    ensures all[|before| + 2 * j..|before| + 2 * j + 2] == row[2 * j..2 * j + 2]
  {
    var n := |before| + 2 * j;
    assert all[n..n + 2] == (before + row)[n..n + 2];
  }

  /** The table's children in row-major order: two per cell, the background
      of cell (i, j) at 2*(i*columns + j) and its text right after. */
  lemma TableLayout(rows: int, columns: int)
    requires rows >= 0 && columns >= 0
    ensures |TableParts(rows, columns)| == 2 * (rows * columns)
    ensures forall i, j {:trigger Cell(i, j)} :: 0 <= i < rows && 0 <= j < columns ==>
      CellAtOffset(TableParts(rows, columns), 2 * (i * columns + j), Cell(i, j))
  {
    assert Pairs(Cell);
    GridLength(Cell, rows, columns);
    forall i, j | 0 <= i < rows && 0 <= j < columns
      ensures CellAtOffset(TableParts(rows, columns), 2 * (i * columns + j), Cell(i, j))
    {
      GridCellAt(Cell, rows, columns, i, j);
    }
  }

  /** Every cell of a table lies inside the table's box (`columns*100` by
      `rows*40`), and its text sits 10 units inside its background on both
      sides and is centred vertically in a 40-unit row. */
  lemma CellsInsideTable(rows: int, columns: int, i: int, j: int)
    requires 0 <= i < rows && 0 <= j < columns
    ensures var bg := CellBackgroundAt(i, j);
      && 0 <= bg.left && bg.left + bg.width <= columns * CellWidth
      && 0 <= bg.top && bg.top + bg.height <= rows * CellHeight
    ensures var bg, tx := CellBackgroundAt(i, j), CellTextAt(i, j);
      && tx.left == bg.left + CellPadding && tx.left + tx.width == bg.left + bg.width - CellPadding
      && tx.top - bg.top == bg.top + bg.height - (tx.top + 20)
    ensures (i == 0) == (CellBackgroundAt(i, j).fill == HeaderFill)
    ensures i == 0 ==> (CellTextAt(i, j).fontWeight == "bold" && CellTextAt(i, j).fontSize == 16
                        && CellTextAt(i, j).text == "Column " + NatToString(j + 1))
    ensures i != 0 ==> (CellTextAt(i, j).fontWeight == "normal" && CellTextAt(i, j).fontSize == 14
                        && CellTextAt(i, j).text == "")
  {
    assert (j + 1) * CellWidth <= columns * CellWidth;
    assert (i + 1) * CellHeight <= rows * CellHeight;
  }

  /** Two different cells never overlap: their backgrounds are side by side
      or one above the other. */
  lemma CellsDoNotOverlap(i: int, j: int, i2: int, j2: int)
    requires (i, j) != (i2, j2)
    ensures var a, b := CellBackgroundAt(i, j), CellBackgroundAt(i2, j2);
      || a.left + a.width <= b.left || b.left + b.width <= a.left
      || a.top + a.height <= b.top || b.top + b.height <= a.top
  {
    if j < j2 {
      assert (j + 1) * CellWidth <= j2 * CellWidth;
    } else if j2 < j {
      assert (j2 + 1) * CellWidth <= j * CellWidth;
    } else if i < i2 {
      assert (i + 1) * CellHeight <= i2 * CellHeight;
    } else {
      assert (i2 + 1) * CellHeight <= i * CellHeight;
    }
  }

  /** `createTable`: a group of `rows` x `columns` cells, each 100x40, whose
      box is centred on the canvas centre, on a new "Table Layer". */
  function CreateTable(e: Editor, rows: int, columns: int, stamp: string): (r: Editor)
    ensures AddsOneLayer(e, r, "Table Layer", "table-" + stamp)
    ensures e.store.hasCanvas ==>
      var o := r.objects[|e.objects|];
      var c := CenterPosition(e);
      && o.shape == TableGroup(TableParts(rows, columns))
      && o.left + (columns * CellWidth) as real / 2.0 == c.x
      && o.top + (rows * CellHeight) as real / 2.0 == c.y
  {
    if !e.store.hasCanvas then e
    else
      var c := CenterPosition(e);
      var tableWidth := (columns * CellWidth) as real;
      var tableHeight := (rows * CellHeight) as real;
      var layerId := "table-" + stamp;
      var group := NewObject(FreshUid(e.objects), TableGroup(TableParts(rows, columns)),
                             c.x - tableWidth / 2.0, c.y - tableHeight / 2.0, Some(ObjectData(layerId, "table")));
      AddWithLayer(e, group, Layer(layerId, "Table Layer", true, false))
  }

  /** The dialog's confirm button as wired here: `onConfirm` is
      `createTable`, `onClose` hides the dialog. Confirming an open dialog
      adds the table and closes it; a closed dialog has no button. */
  function ConfirmTable(e: Editor, m: TableModal.Modal, stamp: string): (r: (Editor, bool))
    ensures !m.isOpen ==> r == (e, m.isOpen)
    ensures m.isOpen ==> r == (CreateTable(e, m.rows, m.columns, stamp), false)
  {
    var calls := TableModal.ConfirmClicked(m);
    if m.isOpen then
      var e1 := CreateTable(e, m.rows, m.columns, stamp);
      assert RunCallbacks(e1, m.isOpen, calls[1..], stamp) == RunCallbacks(e1, false, [], stamp);
      RunCallbacks(e, m.isOpen, calls, stamp)
    else
      RunCallbacks(e, m.isOpen, calls, stamp)
  }

  /** A table confirmed from the dialog, whatever was typed into it, has
      between 1x1 and 20x10 cells, two children each. */
  lemma ConfirmedTableSize(e: Editor, isOpen: bool, edits: seq<TableModal.Edit>, stamp: string)
    requires isOpen && e.store.hasCanvas
    ensures var m := TableModal.ApplyEdits(TableModal.Mount(isOpen), edits);
      var parts := ConfirmTable(e, m, stamp).0.objects[|e.objects|].shape.parts;
      2 <= |parts| == 2 * (m.rows * m.columns) <= 2 * (TableModal.MaxRows * TableModal.MaxColumns)
  {
    var m := TableModal.ApplyEdits(TableModal.Mount(isOpen), edits);
    TableLayout(m.rows, m.columns);
    TableSizeBounds(m.rows, m.columns);
  }

  lemma TableSizeBounds(rows: int, columns: int)
    requires 1 <= rows <= TableModal.MaxRows && 1 <= columns <= TableModal.MaxColumns
    ensures 2 <= 2 * (rows * columns) <= 2 * (TableModal.MaxRows * TableModal.MaxColumns)
  {
    assert rows * columns <= TableModal.MaxRows * columns <= TableModal.MaxRows * TableModal.MaxColumns;
  }

  /** Performs the dialog's calls in order. */
  function RunCallbacks(e: Editor, shown: bool, calls: seq<TableModal.Callback>, stamp: string): (Editor, bool)
    decreases |calls|
  {
    if calls == [] then (e, shown)
    else
      match calls[0]
      case OnConfirm(rows, columns) => RunCallbacks(CreateTable(e, rows, columns, stamp), shown, calls[1..], stamp)
      case OnClose => RunCallbacks(e, false, calls[1..], stamp)
  }

  // ---------------------------------------------------------------------
  // Acting on the active object
  // ---------------------------------------------------------------------

  /** `toggleLock`: the active object counts as locked when both movement
      flags are set; all five flags are then set to the opposite. Nothing
      happens without a canvas or an active object. */
  function ToggleLock(e: Editor): (r: Editor)
    ensures !e.store.hasCanvas || ActiveIndex(e).None? ==> r == e
    ensures e.store.hasCanvas && ActiveIndex(e).Some? ==>
      var k := ActiveIndex(e).value;
      var o := e.objects[k];
      && |r.objects| == |e.objects|
      && r.objects[k].locks == AllLocks(!(o.locks.movementX && o.locks.movementY))
      && UniformLocks(r.objects[k].locks)
      && r.objects[k] == o.(locks := r.objects[k].locks)
      && (forall i :: 0 <= i < |e.objects| && i != k ==> r.objects[i] == e.objects[i])
      && r.store == e.store && r.active == e.active
  {
    if !e.store.hasCanvas then e
    else
      match ActiveIndex(e)
      case None => e
      case Some(k) =>
        var o := e.objects[k];
        var isLocked := o.locks.movementX && o.locks.movementY;
        e.(objects := e.objects[k := o.(locks := AllLocks(!isLocked))])
  }

  /** Toggling twice restores an object whose five flags agreed. */
  lemma ToggleLockTwice(e: Editor)
    requires e.store.hasCanvas && ActiveIndex(e).Some?
    requires UniformLocks(e.objects[ActiveIndex(e).value].locks)
    ensures ToggleLock(ToggleLock(e)) == e
  {
    var k := ActiveIndex(e).value;
    var r1 := ToggleLock(e);
    assert ActiveIndex(r1) == Some(k) by {
      assert r1.objects[k].uid == e.objects[k].uid;
      assert forall i :: 0 <= i < k ==> r1.objects[i] == e.objects[i];
    }
    assert ToggleLock(r1).objects == e.objects;
  }

  /** `deleteSelected`: the active object leaves the canvas; if it carries a
      non-empty layer id, every layer with that id leaves the list. Nothing
      happens without a canvas or an active object. */
  function DeleteSelected(e: Editor): (r: Editor)
    ensures !e.store.hasCanvas || ActiveIndex(e).None? ==> r == e
    ensures e.store.hasCanvas && ActiveIndex(e).Some? ==>
      var k := ActiveIndex(e).value;
      var o := e.objects[k];
      && r.objects == e.objects[..k] + e.objects[k + 1..]
      && (LayerIdOf(o).Some? && LayerIdOf(o).value != "" ==>
            && !HasLayer(r.store.layers, LayerIdOf(o).value)
            && (forall l :: l in r.store.layers <==> l in e.store.layers && l.id != LayerIdOf(o).value)
            && (forall l :: multiset(r.store.layers)[l] ==
                  if l.id == LayerIdOf(o).value then 0 else multiset(e.store.layers)[l])
            && Seqs.SubsequenceOf(r.store.layers, e.store.layers))
      && (LayerIdOf(o).None? || LayerIdOf(o).value == "" ==> r.store == e.store)
      && EditorStore.DocumentUnchanged(e.store, r.store)
      && (UniqueUids(e.objects) ==> ActiveIndex(r).None?)
  {
    if !e.store.hasCanvas then e
    else
      match ActiveIndex(e)
      case None => e
      case Some(k) =>
        var o := e.objects[k];
        var objs := e.objects[..k] + e.objects[k + 1..];
        assert forall i :: 0 <= i < |objs| ==> objs[i] == (if i < k then e.objects[i] else e.objects[i + 1]);
        assert UniqueUids(e.objects) ==> forall i :: 0 <= i < |objs| ==> objs[i].uid != o.uid;
        if LayerIdOf(o).Some? && LayerIdOf(o).value != "" then
          e.(store := EditorStore.RemoveLayer(e.store, LayerIdOf(o).value), objects := objs)
        else
          e.(objects := objs)
  }
}

=== FILE: image_uploader.dfy ===
/** The image uploader (src/components/Tools/ImageUploader.tsx): a loaded
    image becomes a canvas object, and its source joins a short list of
    recently used images. File reading and image decoding are asynchronous
    and stay outside; `AddImageToCanvas` is the effect once the image has
    loaded. */
module ImageUploader {
  import opened Wrappers
  import opened Scene

  const MaxRecent := 6

  /** The recent-images update: an unseen source goes to the front and the
      list is cut to its first six entries; a known source changes nothing. */
  function Remember(recent: seq<string>, src: string): (r: seq<string>)
    ensures src in recent ==> r == recent
    ensures src !in recent ==> 0 < |r| <= |recent| + 1 && r[0] == src && r[1..] == recent[..|r| - 1]
    ensures src !in recent ==> |r| == if |recent| < MaxRecent then |recent| + 1 else MaxRecent
    ensures |recent| <= MaxRecent ==> |r| <= MaxRecent
    ensures src in r
  {
    if src in recent then recent
    else
      var grown := [src] + recent;
      if |grown| <= MaxRecent then grown else grown[..MaxRecent]
  }

  /** No source is listed twice. */
  predicate Distinct(s: seq<string>) {
    forall i, j :: 0 <= i < j < |s| ==> s[i] != s[j]
  }

  /** A list without repeats keeps none. */
  lemma RememberKeepsDistinct(recent: seq<string>, src: string)
    requires Distinct(recent)
    ensures Distinct(Remember(recent, src))
  {
    var r := Remember(recent, src);
    if src !in recent {
      forall i, j | 0 <= i < j < |r| ensures r[i] != r[j] {
        if i == 0 {
          assert r[j] == recent[j - 1];
        } else {
          assert r[i] == recent[i - 1] && r[j] == recent[j - 1];
        }
      }
    }
  }

  /** The list after a run of loads: never more than six entries, never a
      repeat. */
  function RememberAll(recent: seq<string>, srcs: seq<string>): (r: seq<string>)
    requires |recent| <= MaxRecent && Distinct(recent)
    ensures |r| <= MaxRecent && Distinct(r)
    decreases |srcs|
  {
    if srcs == [] then recent
    else
      RememberKeepsDistinct(recent, srcs[0]);
      RememberAll(Remember(recent, srcs[0]), srcs[1..])
  }

  /** The image loaded last is always on the list. */
  lemma {:induction false} LatestIsListed(recent: seq<string>, srcs: seq<string>)
    requires |recent| <= MaxRecent && Distinct(recent) && srcs != []
    ensures srcs[|srcs| - 1] in RememberAll(recent, srcs)
    decreases |srcs|
  {
    RememberKeepsDistinct(recent, srcs[0]);
    if |srcs| > 1 {
      LatestIsListed(Remember(recent, srcs[0]), srcs[1..]);
    }
  }

  /** `addImageToCanvas` once the image has loaded: without a canvas nothing
      happens; otherwise a half-scale picture at (100, 100), with no layer
      data, is added and made active, and the recent list is updated. */
  function AddImageToCanvas(e: Editor, recent: seq<string>, src: string): (r: (Editor, seq<string>))
    ensures !e.store.hasCanvas ==> r == (e, recent)
    ensures e.store.hasCanvas ==>
      var (e', recent') := r;
      && |e'.objects| == |e.objects| + 1 && e'.objects[..|e.objects|] == e.objects
      && (var o := e'.objects[|e.objects|];
          && o.shape == Picture(src) && o.left == 100.0 && o.top == 100.0
          && o.scaleX == 0.5 && o.scaleY == 0.5 && o.data.None?
          && e'.active == Some(o.uid)
          && (forall i :: 0 <= i < |e.objects| ==> e.objects[i].uid != o.uid))
      && e'.store == e.store
      && recent' == Remember(recent, src)
  {
    if !e.store.hasCanvas then (e, recent)
    else
      var o := NewObject(FreshUid(e.objects), Picture(src), 100.0, 100.0, None).(scaleX := 0.5, scaleY := 0.5);
      (AddAndActivate(e, o), Remember(recent, src))
  }
}

=== FILE: layer_panel.dfy ===
/** The layer panel (src/components/Layers/LayerPanel.tsx): showing, locking,
    reordering and deleting layers, each pushed onto the canvas objects that
    carry the layer's id. Every action does nothing until a canvas exists. */
module LayerPanel {
  import opened Wrappers
  import opened Types
  import Seqs
  import EditorStore
  import opened Scene

  // ---------------------------------------------------------------------
  // Re-sorting canvas objects by layer position
  // ---------------------------------------------------------------------

  /** The comparator's key: `layers.findIndex(l => l.id === obj.data?.layerId)`,
      so an object without a layer, or whose layer is not listed, gets -1. */
  function LayerKey(layers: seq<Layer>, o: CanvasObject): (k: int)
    ensures -1 <= k < |layers|
    ensures k >= 0 <==> LayerIdOf(o).Some? && HasLayer(layers, LayerIdOf(o).value)
  {
    match LayerIdOf(o)
    case None => -1
    case Some(id) => LayerIndex(layers, id)
  }

  predicate SortedByLayer(layers: seq<Layer>, objs: seq<CanvasObject>) {
    forall i, j :: 0 <= i < j < |objs| ==> LayerKey(layers, objs[i]) <= LayerKey(layers, objs[j])
  }

  /** The test "has key `k`". */
  function KeyIs(layers: seq<Layer>, k: int): CanvasObject -> bool {
    (o: CanvasObject) => LayerKey(layers, o) == k
  }

  /** The objects whose key is `k`, in their order. */
  function WithKey(layers: seq<Layer>, objs: seq<CanvasObject>, k: int): seq<CanvasObject> {
    Seqs.Filter(objs, KeyIs(layers, k))
  }

  /** The key-`k` part of a sequence with a known head. */
  lemma WithKeyCons(layers: seq<Layer>, x: CanvasObject, s: seq<CanvasObject>, k: int)
    ensures WithKey(layers, [x] + s, k) == (if LayerKey(layers, x) == k then [x] else []) + WithKey(layers, s, k)
  {
    assert ([x] + s)[0] == x;
    assert ([x] + s)[1..] == s;
  }

  /** One insertion step of a stable sort: `o` goes before the first entry
      whose key is at least its own. */
  function InsertByLayer(layers: seq<Layer>, o: CanvasObject, sorted: seq<CanvasObject>): (r: seq<CanvasObject>)
    ensures SortedByLayer(layers, sorted) ==> SortedByLayer(layers, r)
    ensures multiset(r) == multiset(sorted) + multiset{o}
    ensures |r| == |sorted| + 1
  {
    if sorted == [] || LayerKey(layers, o) <= LayerKey(layers, sorted[0]) then [o] + sorted
    else
      var rest := InsertByLayer(layers, o, sorted[1..]);
      assert sorted == [sorted[0]] + sorted[1..];
      InsertPastHeadSorted(layers, o, sorted, rest);
      [sorted[0]] + rest
  }

  /** Inserting behind a head of smaller key keeps the list in key order. */
  lemma InsertPastHeadSorted(layers: seq<Layer>, o: CanvasObject, sorted: seq<CanvasObject>, rest: seq<CanvasObject>)
    requires sorted != [] && LayerKey(layers, o) > LayerKey(layers, sorted[0])
    requires multiset(rest) == multiset(sorted[1..]) + multiset{o}
    requires SortedByLayer(layers, sorted[1..]) ==> SortedByLayer(layers, rest)
    ensures SortedByLayer(layers, sorted) ==> SortedByLayer(layers, [sorted[0]] + rest)
  {
    if SortedByLayer(layers, sorted) {
      forall j | 0 <= j < |rest| ensures LayerKey(layers, sorted[0]) <= LayerKey(layers, rest[j]) {
        var x := rest[j];
        assert x in multiset(rest);
        if x != o {
          assert x in multiset(sorted[1..]);
          var m :| 0 <= m < |sorted[1..]| && sorted[1..][m] == x;
          assert sorted[m + 1] == x;
        }
      }
    }
  }

  /** `objects.sort((a, b) => aIndex - bIndex)` with the layer positions as
      keys. Array sorting in JavaScript is stable, so this is the stable sort
      by key: a permutation in key order. */
  function SortByLayer(layers: seq<Layer>, objs: seq<CanvasObject>): (r: seq<CanvasObject>)
    ensures SortedByLayer(layers, r)
    ensures multiset(r) == multiset(objs)
    ensures |r| == |objs|
  {
    if objs == [] then []
    else
      assert objs == [objs[0]] + objs[1..];
      InsertByLayer(layers, objs[0], SortByLayer(layers, objs[1..]))
  }

  /** Inserting `o` puts it ahead of every object with its key. */
  lemma {:induction false} InsertStable(layers: seq<Layer>, o: CanvasObject, sorted: seq<CanvasObject>, k: int)
    ensures WithKey(layers, InsertByLayer(layers, o, sorted), k)
         == (if LayerKey(layers, o) == k then [o] else []) + WithKey(layers, sorted, k)
  {
    if sorted == [] || LayerKey(layers, o) <= LayerKey(layers, sorted[0]) {
      WithKeyCons(layers, o, sorted, k);
    } else {
      InsertStable(layers, o, sorted[1..], k);
      InsertStablePastHead(layers, o, sorted, k);
    }
  }

  /** The step of `InsertStable` where `o` travels past the head. */
  lemma InsertStablePastHead(layers: seq<Layer>, o: CanvasObject, sorted: seq<CanvasObject>, k: int)
    requires sorted != [] && LayerKey(layers, o) > LayerKey(layers, sorted[0])
    requires WithKey(layers, InsertByLayer(layers, o, sorted[1..]), k)
          == (if LayerKey(layers, o) == k then [o] else []) + WithKey(layers, sorted[1..], k)
    ensures WithKey(layers, InsertByLayer(layers, o, sorted), k)
         == (if LayerKey(layers, o) == k then [o] else []) + WithKey(layers, sorted, k)
  {
    var rest := InsertByLayer(layers, o, sorted[1..]);
    var w := WithKey(layers, sorted[1..], k);
    var hs: seq<CanvasObject> := if LayerKey(layers, sorted[0]) == k then [sorted[0]] else [];
    var ho: seq<CanvasObject> := if LayerKey(layers, o) == k then [o] else [];
    assert InsertByLayer(layers, o, sorted) == [sorted[0]] + rest;
    WithKeyCons(layers, sorted[0], rest, k);
    WithKeyHead(layers, sorted, k);
    assert WithKey(layers, [sorted[0]] + rest, k) == hs + (ho + w);
    assert WithKey(layers, sorted, k) == hs + w;
    EmptyHeadsCommute(hs, ho, w);
  }

  /** Two prefixes of which one is empty can be written in either order. */
  lemma EmptyHeadsCommute<T>(a: seq<T>, b: seq<T>, w: seq<T>)
    requires a == [] || b == []
    ensures a + (b + w) == b + (a + w)
  {
    if a == [] {
      assert a + (b + w) == b + w == b + (a + w);
    } else {
      assert a + (b + w) == a + w == b + (a + w);
    }
  }

  /** The key-`k` part of a non-empty sequence, split at its head. */
  lemma WithKeyHead(layers: seq<Layer>, s: seq<CanvasObject>, k: int)
    requires s != []
    ensures WithKey(layers, s, k) == (if LayerKey(layers, s[0]) == k then [s[0]] else []) + WithKey(layers, s[1..], k)
  {
  }

  /** The sort is stable: the objects of any one key keep their order. */
  lemma {:induction false} SortStable(layers: seq<Layer>, objs: seq<CanvasObject>, k: int)
    ensures WithKey(layers, SortByLayer(layers, objs), k) == WithKey(layers, objs, k)
  {
    if objs != [] {
      SortStable(layers, objs[1..], k);
      InsertStable(layers, objs[0], SortByLayer(layers, objs[1..]), k);
      assert objs == [objs[0]] + objs[1..];
      WithKeyCons(layers, objs[0], objs[1..], k);
    }
  }

  /** Stability for every key at once. */
  lemma SortStableAll(layers: seq<Layer>, objs: seq<CanvasObject>)
    ensures forall k :: WithKey(layers, SortByLayer(layers, objs), k) == WithKey(layers, objs, k)
  {
    forall k ensures WithKey(layers, SortByLayer(layers, objs), k) == WithKey(layers, objs, k) {
      SortStable(layers, objs, k);
    }
  }

  /** An object of key `k` is in the key-`k` part. */
  lemma InWithKey(layers: seq<Layer>, objs: seq<CanvasObject>, j: int)
    requires 0 <= j < |objs|
    ensures objs[j] in WithKey(layers, objs, LayerKey(layers, objs[j]))
  {
  }

  /** Two key-ordered lists with the same objects per key, in the same order,
      are equal: a stable sort has exactly one possible result. */
  lemma {:induction false} SortedStableUnique(layers: seq<Layer>, a: seq<CanvasObject>, b: seq<CanvasObject>)
    requires SortedByLayer(layers, a) && SortedByLayer(layers, b)
    requires forall k :: WithKey(layers, a, k) == WithKey(layers, b, k)
    ensures a == b
    decreases |a|
  {
    if a == [] || b == [] {
      EmptyKeyParts(layers, a, b);
    } else {
      HeadsAgree(layers, a, b);
      TailsAgree(layers, a, b);
      SortedByLayerTail(layers, a);
      SortedByLayerTail(layers, b);
      SortedStableUnique(layers, a[1..], b[1..]);
      assert a == [a[0]] + a[1..];
      assert b == [b[0]] + b[1..];
    }
  }

  /** A list with no object of any key is empty. */
  lemma EmptyKeyParts(layers: seq<Layer>, a: seq<CanvasObject>, b: seq<CanvasObject>)
    requires a == [] || b == []
    requires forall k :: WithKey(layers, a, k) == WithKey(layers, b, k)
    ensures a == b
  {
    if a == [] && b != [] {
      InWithKey(layers, b, 0);
    } else if a != [] && b == [] {
      InWithKey(layers, a, 0);
    }
  }

  lemma SortedByLayerTail(layers: seq<Layer>, a: seq<CanvasObject>)
    requires a != [] && SortedByLayer(layers, a)
    ensures SortedByLayer(layers, a[1..])
  {
  }

  /** Both lists start with the least key, and so with its first object. */
  lemma HeadsAgree(layers: seq<Layer>, a: seq<CanvasObject>, b: seq<CanvasObject>)
    requires a != [] && b != []
    requires SortedByLayer(layers, a) && SortedByLayer(layers, b)
    requires forall k :: WithKey(layers, a, k) == WithKey(layers, b, k)
    ensures a[0] == b[0]
  {
    var ka, kb := LayerKey(layers, a[0]), LayerKey(layers, b[0]);
    HeadKeyIsLeast(layers, a, b);
    HeadKeyIsLeast(layers, b, a);
    assert ka == kb;
    HeadLeadsKeyPart(layers, a);
    HeadLeadsKeyPart(layers, b);
    assert WithKey(layers, a, ka) == WithKey(layers, b, ka);
  }

  /** The head of `b` has no larger key than the head of `a` when both hold
      the same objects per key and `b` is in key order. */
  lemma HeadKeyIsLeast(layers: seq<Layer>, a: seq<CanvasObject>, b: seq<CanvasObject>)
    requires a != [] && b != [] && SortedByLayer(layers, b)
    requires forall k :: WithKey(layers, a, k) == WithKey(layers, b, k)
    ensures LayerKey(layers, b[0]) <= LayerKey(layers, a[0])
  {
    var ka := LayerKey(layers, a[0]);
    InWithKey(layers, a, 0);
    assert a[0] in WithKey(layers, b, ka);
    assert a[0] in b;
    var j :| 0 <= j < |b| && b[j] == a[0];
    if j > 0 {
      assert LayerKey(layers, b[0]) <= LayerKey(layers, b[j]);
    }
  }

  /** A list's head is the first object of its own key. */
  lemma HeadLeadsKeyPart(layers: seq<Layer>, s: seq<CanvasObject>)
    requires s != []
    ensures var w := WithKey(layers, s, LayerKey(layers, s[0])); w != [] && w[0] == s[0]
  {
    WithKeyHead(layers, s, LayerKey(layers, s[0]));
  }

  /** Dropping the same head from both lists keeps their key parts equal. */
  lemma TailsAgree(layers: seq<Layer>, a: seq<CanvasObject>, b: seq<CanvasObject>)
    requires a != [] && b != [] && a[0] == b[0]
    requires forall k :: WithKey(layers, a, k) == WithKey(layers, b, k)
    ensures forall k :: WithKey(layers, a[1..], k) == WithKey(layers, b[1..], k)
  {
    assert a == [a[0]] + a[1..];
    assert b == [b[0]] + b[1..];
    forall k
      ensures WithKey(layers, a[1..], k) == WithKey(layers, b[1..], k)
    {
      WithKeyCons(layers, a[0], a[1..], k);
      WithKeyCons(layers, b[0], b[1..], k);
      if LayerKey(layers, a[0]) == k {
        assert WithKey(layers, a[1..], k) == WithKey(layers, a, k)[1..];
        assert WithKey(layers, b[1..], k) == WithKey(layers, b, k)[1..];
      }
    }
  }

  /** Re-sorting a list that is already in layer order changes nothing. */
  lemma SortKeepsSorted(layers: seq<Layer>, objs: seq<CanvasObject>)
    requires SortedByLayer(layers, objs)
    ensures SortByLayer(layers, objs) == objs
  {
    forall k ensures WithKey(layers, SortByLayer(layers, objs), k) == WithKey(layers, objs, k) {
      SortStable(layers, objs, k);
    }
    SortedStableUnique(layers, SortByLayer(layers, objs), objs);
  }

  // ---------------------------------------------------------------------
  // Key classes of two layer lists that hold the same ids
  // ---------------------------------------------------------------------

  ghost predicate SameIds(a: seq<Layer>, b: seq<Layer>) {
    forall id :: HasLayer(a, id) <==> HasLayer(b, id)
  }

  /** The key in `b` of the objects that have key `k` in `a`; -2 (no object's
      key) when no object can have key `k` in `a`. */
  function MatchingKey(a: seq<Layer>, b: seq<Layer>, k: int): int {
    if k == -1 then -1
    else if 0 <= k < |a| && LayerIndex(a, a[k].id) == k then LayerIndex(b, a[k].id)
    else -2
  }

  lemma MatchingKeyAgrees(a: seq<Layer>, b: seq<Layer>, k: int, o: CanvasObject)
    requires SameIds(a, b)
    ensures (LayerKey(a, o) == k) == (LayerKey(b, o) == MatchingKey(a, b, k))
  {
    if k >= 0 && k < |a| && LayerIndex(a, a[k].id) == k {
      assert HasLayer(a, a[k].id);
      var kb := LayerIndex(b, a[k].id);
      assert kb >= 0;
    }
  }

  /** Sorting by one layer order keeps the objects of each layer in order, as
      seen by any other order over the same ids. */
  lemma SortKeepsKeyClasses(a: seq<Layer>, b: seq<Layer>, objs: seq<CanvasObject>, k: int)
    requires SameIds(a, b)
    ensures WithKey(a, SortByLayer(b, objs), k) == WithKey(a, objs, k)
  {
    var k' := MatchingKey(a, b, k);
    var s := SortByLayer(b, objs);
    var p := KeyIs(a, k);
    var q := KeyIs(b, k');
    forall i | 0 <= i < |s| ensures p(s[i]) == q(s[i]) { MatchingKeyAgrees(a, b, k, s[i]); }
    forall i | 0 <= i < |objs| ensures p(objs[i]) == q(objs[i]) { MatchingKeyAgrees(a, b, k, objs[i]); }
    Seqs.FilterAgrees(s, p, q);
    Seqs.FilterAgrees(objs, p, q);
    SortStable(b, objs, k');
  }

  /** Sorting by `b` and then by `a` is sorting by `a`. */
  lemma ResortComposes(a: seq<Layer>, b: seq<Layer>, objs: seq<CanvasObject>)
    requires SameIds(a, b)
    ensures SortByLayer(a, SortByLayer(b, objs)) == SortByLayer(a, objs)
  {
    var twice := SortByLayer(a, SortByLayer(b, objs));
    var once := SortByLayer(a, objs);
    forall k ensures WithKey(a, twice, k) == WithKey(a, once, k) {
      SortStable(a, SortByLayer(b, objs), k);
      SortKeepsKeyClasses(a, b, objs, k);
      SortStable(a, objs, k);
    }
    SortedStableUnique(a, twice, once);
  }

  // ---------------------------------------------------------------------
  // The panel's actions
  // ---------------------------------------------------------------------

  datatype Direction = Up | Down

  /** The position a layer trades places with. */
  function Neighbour(index: int, dir: Direction): int {
    if dir.Up? then index - 1 else index + 1
  }

  /** The guard of `moveLayer` as written: up when the index is above 0, down
      when it is below the last position. It does not check that the id was
      found, so `findIndex`'s -1 passes it going down. */
  predicate GuardAsWritten(layers: seq<Layer>, id: string, dir: Direction) {
    var index := LayerIndex(layers, id);
    (dir.Up? && index > 0) || (dir.Down? && index < |layers| - 1)
  }

  /** Moving an unlisted id down in a non-empty list passes the guard with
      index -1: the swap would then read and write outside the list. */
  lemma UnknownIdPassesGuard(layers: seq<Layer>, id: string)
    requires |layers| > 0 && !HasLayer(layers, id)
    ensures GuardAsWritten(layers, id, Down) && LayerIndex(layers, id) == -1
  {
  }

  /** A JavaScript array of layers: reading outside it gives `undefined`
      (`None`), and writing at a negative index sets a property that is not
      an element, so the elements stay as they were. */
  function ArrayAt(a: seq<Option<Layer>>, k: int): (v: Option<Layer>)
    ensures 0 <= k < |a| ==> v == a[k]
    ensures !(0 <= k < |a|) ==> v.None?
  {
    if 0 <= k < |a| then a[k] else None
  }

  function ArrayPut(a: seq<Option<Layer>>, k: int, v: Option<Layer>): (r: seq<Option<Layer>>)
    requires k < |a|
    ensures |r| == |a|
    ensures forall i :: 0 <= i < |a| ==> r[i] == if i == k then v else a[i]
  {
    if k < 0 then a else a[k := v]
  }

  /** The layer list `moveLayer` builds, as written: the guard, then the
      three-step swap through `temp` on a copy of the array. */
  function MoveLayersAsWritten(layers: seq<Layer>, id: string, dir: Direction): (r: seq<Option<Layer>>)
    ensures |r| == |layers|
    ensures !GuardAsWritten(layers, id, dir) ==> forall k :: 0 <= k < |layers| ==> r[k] == Some(layers[k])
  {
    var a := seq(|layers|, i requires 0 <= i < |layers| => Some(layers[i]));
    if !GuardAsWritten(layers, id, dir) then a
    else
      var index := LayerIndex(layers, id);
      var other := Neighbour(index, dir);
      var temp := ArrayAt(a, index);
      ArrayPut(ArrayPut(a, index, ArrayAt(a, other)), other, temp)
  }

  /** For a listed id the written swap is an ordinary swap of two layers. */
  lemma AsWrittenSwapsListedLayer(layers: seq<Layer>, id: string, dir: Direction)
    requires CanMove(layers, id, dir)
    ensures var i := LayerIndex(layers, id); var j := Neighbour(i, dir);
      forall k :: 0 <= k < |layers| ==>
        MoveLayersAsWritten(layers, id, dir)[k] ==
          Some(if k == i then layers[j] else if k == j then layers[i] else layers[k])
  {
  }

  /** Moving an unlisted id down in a non-empty list, as written, puts
      `undefined` in place of the first layer and keeps the rest. */
  lemma UnknownIdBlanksFirstLayer(layers: seq<Layer>, id: string)
    requires |layers| > 0 && !HasLayer(layers, id)
    ensures var r := MoveLayersAsWritten(layers, id, Down);
      r[0].None? && forall k :: 1 <= k < |layers| ==> r[k] == Some(layers[k])
  {
    UnknownIdPassesGuard(layers, id);
  }

  /** The guard as evidently intended: the id is listed and has a neighbour
      in the given direction. */
  predicate CanMove(layers: seq<Layer>, id: string, dir: Direction) {
    LayerIndex(layers, id) >= 0 && GuardAsWritten(layers, id, dir)
  }

  /** The intended guard admits exactly the swaps whose two positions are in
      the list, and differs from the written one only on the unlisted id
      moved down. */
  lemma CanMoveInBounds(layers: seq<Layer>, id: string, dir: Direction)
    ensures var i := LayerIndex(layers, id);
      CanMove(layers, id, dir) <==> 0 <= i < |layers| && 0 <= Neighbour(i, dir) < |layers|
    ensures GuardAsWritten(layers, id, dir) && !CanMove(layers, id, dir) <==>
      dir.Down? && !HasLayer(layers, id) && |layers| > 0
  {
  }

  /** `moveLayer`: trade places with the neighbour in the given direction,
      then re-sort the canvas objects into the new layer order. At either end
      of the list, for an unknown id, or without a canvas, nothing changes. */
  function MoveLayer(e: Editor, id: string, dir: Direction): (r: Editor)
    ensures !e.store.hasCanvas || !CanMove(e.store.layers, id, dir) ==> r == e
    ensures dir.Up? && LayerIndex(e.store.layers, id) <= 0 ==> r == e
    ensures !HasLayer(e.store.layers, id) ==> r == e
    ensures dir.Down? && LayerIndex(e.store.layers, id) == |e.store.layers| - 1 ==> r == e
    ensures e.store.hasCanvas && CanMove(e.store.layers, id, dir) ==>
      var layers, i := e.store.layers, LayerIndex(e.store.layers, id);
      var j := Neighbour(i, dir);
      && 0 <= i < |layers| && 0 <= j < |layers|
      && |r.store.layers| == |layers|
      && r.store.layers[i] == layers[j] && r.store.layers[j] == layers[i]
      && (forall k :: 0 <= k < |layers| && k != i && k != j ==> r.store.layers[k] == layers[k])
      && multiset(r.store.layers) == multiset(layers)
      && multiset(r.objects) == multiset(e.objects)
      && SortedByLayer(r.store.layers, r.objects)
      && (forall k :: WithKey(r.store.layers, r.objects, k) == WithKey(r.store.layers, e.objects, k))
      && EditorStore.DocumentUnchanged(e.store, r.store)
      && r.active == e.active
  {
    if !e.store.hasCanvas then e
    else
      var layers := e.store.layers;
      var index := LayerIndex(layers, id);
      if CanMove(layers, id, dir) then
        var other := Neighbour(index, dir);
        var newLayers := layers[index := layers[other]][other := layers[index]];
        SwapPermutes(layers, index, other);
        SortStableAll(newLayers, e.objects);
        e.(store := EditorStore.SetLayers(e.store, newLayers), objects := SortByLayer(newLayers, e.objects))
      else e
  }

  lemma SwapPermutes(layers: seq<Layer>, i: int, j: int)
    requires 0 <= i < |layers| && 0 <= j < |layers|
    ensures multiset(layers[i := layers[j]][j := layers[i]]) == multiset(layers)
    ensures SameIds(layers, layers[i := layers[j]][j := layers[i]])
  {
    var s := layers[i := layers[j]][j := layers[i]];
    forall id ensures HasLayer(layers, id) <==> HasLayer(s, id) {
      if HasLayer(layers, id) {
        var k :| 0 <= k < |layers| && layers[k].id == id;
        var k' := if k == i then j else if k == j then i else k;
        assert s[k'].id == id;
      }
      if HasLayer(s, id) {
        var k :| 0 <= k < |s| && s[k].id == id;
        var k' := if k == i then j else if k == j then i else k;
        assert layers[k'].id == id;
      }
    }
  }

  /** Moving a layer up and then down again restores the layer list; when
      the objects were already in layer order, it restores them too, so the
      whole editor is as before. */
  lemma MoveUpThenDown(e: Editor, id: string)
    requires e.store.hasCanvas && LayerIndex(e.store.layers, id) > 0
    ensures MoveLayer(MoveLayer(e, id, Up), id, Down).store.layers == e.store.layers
    ensures SortedByLayer(e.store.layers, e.objects) ==> MoveLayer(MoveLayer(e, id, Up), id, Down) == e
  {
    var layers := e.store.layers;
    var i := LayerIndex(layers, id);
    var e1 := MoveLayer(e, id, Up);
    var l1 := e1.store.layers;
    assert l1 == layers[i := layers[i - 1]][i - 1 := layers[i]];
    SwapPermutes(layers, i, i - 1);
    assert LayerIndex(l1, id) == i - 1;
    assert CanMove(l1, id, Down);
    var e2 := MoveLayer(e1, id, Down);
    assert e2.store.layers == layers;
    ResortComposes(layers, l1, e.objects);
    if SortedByLayer(layers, e.objects) {
      SortKeepsSorted(layers, e.objects);
    }
  }

  /** Two layer lists with the same ids in the same places find an id at the
      same position. */
  lemma {:induction false} LayerIndexFollowsIds(a: seq<Layer>, b: seq<Layer>, id: string)
    requires |a| == |b| && forall i :: 0 <= i < |a| ==> a[i].id == b[i].id
    ensures LayerIndex(a, id) == LayerIndex(b, id)
  {
    if a != [] {
      LayerIndexFollowsIds(a[1..], b[1..], id);
    }
  }

  /** `toggleVisibility`: the first layer with the id decides the new flag,
      `!visible`; every layer with the id and every object on it takes that
      flag; everything else is untouched. Without a canvas, or for an unknown
      id, nothing changes. */
  function ToggleVisibility(e: Editor, id: string): (r: Editor)
    ensures !e.store.hasCanvas || !HasLayer(e.store.layers, id) ==> r == e
    ensures e.store.hasCanvas && HasLayer(e.store.layers, id) ==>
      var prev := FindLayer(e.store.layers, id).value;
      && FindLayer(r.store.layers, id) == Some(prev.(visible := !prev.visible))
      && |r.objects| == |e.objects|
      && (forall i :: 0 <= i < |r.objects| && OnLayer(r.objects[i], id) ==>
            r.objects[i].visible == FindLayer(r.store.layers, id).value.visible)
      && (forall i :: 0 <= i < |e.objects| ==>
            r.objects[i] == if OnLayer(e.objects[i], id) then e.objects[i].(visible := !prev.visible) else e.objects[i])
      && |r.store.layers| == |e.store.layers|
      && (forall i :: 0 <= i < |e.store.layers| ==>
            r.store.layers[i] == if e.store.layers[i].id == id then e.store.layers[i].(visible := !prev.visible) else e.store.layers[i])
      && EditorStore.DocumentUnchanged(e.store, r.store)
      && r.active == e.active
  {
    if !e.store.hasCanvas then e
    else
      match FindLayer(e.store.layers, id)
      case None => e
      case Some(layer) =>
        var v := !layer.visible;
        var objs := seq(|e.objects|, i requires 0 <= i < |e.objects| =>
          if OnLayer(e.objects[i], id) then e.objects[i].(visible := v) else e.objects[i]);
        var store := EditorStore.UpdateLayer(e.store, id, LayerPatch(None, None, Some(v), None));
        LayerIndexFollowsIds(e.store.layers, store.layers, id);
        e.(objects := objs, store := store)
  }

  /** `toggleLock`: like `toggleVisibility` for the lock flag; every object on
      the layer gets all five lock flags set to the layer's new `locked`. */
  function ToggleLock(e: Editor, id: string): (r: Editor)
    ensures !e.store.hasCanvas || !HasLayer(e.store.layers, id) ==> r == e
    ensures e.store.hasCanvas && HasLayer(e.store.layers, id) ==>
      var prev := FindLayer(e.store.layers, id).value;
      && FindLayer(r.store.layers, id) == Some(prev.(locked := !prev.locked))
      && |r.objects| == |e.objects|
      && (forall i :: 0 <= i < |r.objects| && OnLayer(r.objects[i], id) ==>
            r.objects[i].locks == AllLocks(FindLayer(r.store.layers, id).value.locked))
      && (forall i :: 0 <= i < |e.objects| ==>
            r.objects[i] == if OnLayer(e.objects[i], id) then e.objects[i].(locks := AllLocks(!prev.locked)) else e.objects[i])
      && |r.store.layers| == |e.store.layers|
      && (forall i :: 0 <= i < |e.store.layers| ==>
            r.store.layers[i] == if e.store.layers[i].id == id then e.store.layers[i].(locked := !prev.locked) else e.store.layers[i])
      && EditorStore.DocumentUnchanged(e.store, r.store)
      && r.active == e.active
  {
    if !e.store.hasCanvas then e
    else
      match FindLayer(e.store.layers, id)
      case None => e
      case Some(layer) =>
        var b := !layer.locked;
        var objs := seq(|e.objects|, i requires 0 <= i < |e.objects| =>
          if OnLayer(e.objects[i], id) then e.objects[i].(locks := AllLocks(b)) else e.objects[i]);
        var store := EditorStore.UpdateLayer(e.store, id, LayerPatch(None, None, None, Some(b)));
        LayerIndexFollowsIds(e.store.layers, store.layers, id);
        e.(objects := objs, store := store)
  }

  /** With unique ids, the one layer holding `id` is the one `find` returns. */
  lemma OnlyPosition(layers: seq<Layer>, id: string, k: int)
    requires UniqueLayerIds(layers) && 0 <= k < |layers| && layers[k].id == id
    ensures LayerIndex(layers, id) == k && FindLayer(layers, id) == Some(layers[k])
  {
  }

  /** The layer half of `ToggleVisibilityTwice`. */
  lemma ToggleVisibilityTwiceLayers(e: Editor, id: string)
    requires e.store.hasCanvas && HasLayer(e.store.layers, id) && UniqueLayerIds(e.store.layers)
    ensures ToggleVisibility(ToggleVisibility(e, id), id).store.layers == e.store.layers
  {
    var l := e.store.layers;
    var prev := FindLayer(l, id).value;
    var r1 := ToggleVisibility(e, id);
    var l1 := r1.store.layers;
    assert HasLayer(l1, id) by { assert l1[LayerIndex(l, id)].id == id; }
    var r2 := ToggleVisibility(r1, id);
    forall k | 0 <= k < |l| ensures r2.store.layers[k] == l[k] {
      if l[k].id == id {
        OnlyPosition(l, id, k);
        assert l1[k] == l[k].(visible := !prev.visible);
      }
    }
    assert r2.store.layers == l;
  }

  /** The object half of `ToggleVisibilityTwice`. */
  lemma ToggleVisibilityTwiceObjects(e: Editor, id: string)
    requires e.store.hasCanvas && HasLayer(e.store.layers, id)
    ensures var r := ToggleVisibility(ToggleVisibility(e, id), id);
      forall i :: 0 <= i < |r.objects| ==>
        r.objects[i] == if OnLayer(e.objects[i], id)
                        then e.objects[i].(visible := FindLayer(e.store.layers, id).value.visible)
                        else e.objects[i]
  {
    var prev := FindLayer(e.store.layers, id).value;
    var r1 := ToggleVisibility(e, id);
    assert FindLayer(r1.store.layers, id) == Some(prev.(visible := !prev.visible));
    var r2 := ToggleVisibility(r1, id);
    forall i | 0 <= i < |r2.objects|
      ensures r2.objects[i] == if OnLayer(e.objects[i], id) then e.objects[i].(visible := prev.visible) else e.objects[i]
    {
      assert r1.objects[i] == if OnLayer(e.objects[i], id) then e.objects[i].(visible := !prev.visible) else e.objects[i];
    }
  }

  /** Toggling visibility twice restores every layer when ids are unique;
      the layer's objects end up with the layer's original flag, whatever
      flag each of them had before. */
  lemma ToggleVisibilityTwice(e: Editor, id: string)
    requires e.store.hasCanvas && HasLayer(e.store.layers, id) && UniqueLayerIds(e.store.layers)
    ensures ToggleVisibility(ToggleVisibility(e, id), id).store.layers == e.store.layers
    ensures var r := ToggleVisibility(ToggleVisibility(e, id), id);
      forall i :: 0 <= i < |r.objects| ==>
        r.objects[i] == if OnLayer(e.objects[i], id)
                        then e.objects[i].(visible := FindLayer(e.store.layers, id).value.visible)
                        else e.objects[i]
  {
    ToggleVisibilityTwiceLayers(e, id);
    ToggleVisibilityTwiceObjects(e, id);
  }

  /** The layer half of `ToggleLockTwice`. */
  lemma ToggleLockTwiceLayers(e: Editor, id: string)
    requires e.store.hasCanvas && HasLayer(e.store.layers, id) && UniqueLayerIds(e.store.layers)
    ensures ToggleLock(ToggleLock(e, id), id).store.layers == e.store.layers
  {
    var l := e.store.layers;
    var prev := FindLayer(l, id).value;
    var r1 := ToggleLock(e, id);
    var l1 := r1.store.layers;
    assert HasLayer(l1, id) by { assert l1[LayerIndex(l, id)].id == id; }
    var r2 := ToggleLock(r1, id);
    forall k | 0 <= k < |l| ensures r2.store.layers[k] == l[k] {
      if l[k].id == id {
        OnlyPosition(l, id, k);
        assert l1[k] == l[k].(locked := !prev.locked);
      }
    }
    assert r2.store.layers == l;
  }

  /** The object half of `ToggleLockTwice`. */
  lemma ToggleLockTwiceObjects(e: Editor, id: string)
    requires e.store.hasCanvas && HasLayer(e.store.layers, id)
    ensures var r := ToggleLock(ToggleLock(e, id), id);
      forall i :: 0 <= i < |r.objects| && OnLayer(r.objects[i], id) ==>
        r.objects[i].locks == AllLocks(FindLayer(e.store.layers, id).value.locked)
  {
    var prev := FindLayer(e.store.layers, id).value;
    var r1 := ToggleLock(e, id);
    assert FindLayer(r1.store.layers, id) == Some(prev.(locked := !prev.locked));
    var r2 := ToggleLock(r1, id);
    assert FindLayer(r2.store.layers, id).value.locked == prev.locked;
  }

  /** Toggling the lock twice restores every layer when ids are unique; the
      layer's objects end up with all five flags equal to the layer's
      original `locked`. */
  lemma ToggleLockTwice(e: Editor, id: string)
    requires e.store.hasCanvas && HasLayer(e.store.layers, id) && UniqueLayerIds(e.store.layers)
    ensures ToggleLock(ToggleLock(e, id), id).store.layers == e.store.layers
    ensures var r := ToggleLock(ToggleLock(e, id), id);
      forall i :: 0 <= i < |r.objects| && OnLayer(r.objects[i], id) ==>
        r.objects[i].locks == AllLocks(FindLayer(e.store.layers, id).value.locked)
  {
    ToggleLockTwiceLayers(e, id);
    ToggleLockTwiceObjects(e, id);
  }

  /** `deleteLayer`: every object on the layer leaves the canvas and the layer
      leaves the list; all other objects and layers stay, in order. The layer
      need not exist. Without a canvas nothing changes. */
  function DeleteLayer(e: Editor, id: string): (r: Editor)
    ensures !e.store.hasCanvas ==> r == e
    ensures e.store.hasCanvas ==>
      && (forall i :: 0 <= i < |r.objects| ==> !OnLayer(r.objects[i], id))
      && (forall o :: o in r.objects <==> o in e.objects && !OnLayer(o, id))
      && (forall o :: multiset(r.objects)[o] == if OnLayer(o, id) then 0 else multiset(e.objects)[o])
      && Seqs.SubsequenceOf(r.objects, e.objects)
      && !HasLayer(r.store.layers, id)
      && (forall l :: l in r.store.layers <==> l in e.store.layers && l.id != id)
      && (forall l :: multiset(r.store.layers)[l] == if l.id == id then 0 else multiset(e.store.layers)[l])
      && Seqs.SubsequenceOf(r.store.layers, e.store.layers)
      && EditorStore.DocumentUnchanged(e.store, r.store)
      && r.active == e.active
  {
    if !e.store.hasCanvas then e
    else
      var p := (o: CanvasObject) => !OnLayer(o, id);
      var objs := Seqs.Filter(e.objects, p);
      Seqs.FilterIsSubsequence(e.objects, p);
      Seqs.FilterCounts(e.objects, p);
      assert forall i :: 0 <= i < |objs| ==> objs[i] in objs;
      e.(objects := objs, store := EditorStore.RemoveLayer(e.store, id))
  }
}

=== FILE: scene.dfy ===
/** The objects on the fabric canvas as the editor's components see them,
    and the editor as a whole: the store plus the canvas's object list and
    its active object. A canvas object's identity (a JavaScript reference)
    is an abstract `uid`. */
module Scene {
  import opened Wrappers
  import opened Types
  import EditorStore

  /** The page the canvas is created with: A4 at 96 DPI
      (src/components/Canvas/index.tsx:13-14). */
  const PageWidth: real := 794.0
  const PageHeight: real := 1123.0

  /** The five lock flags of a fabric object. */
  datatype Locks = Locks(movementX: bool, movementY: bool, rotation: bool, scalingX: bool, scalingY: bool)

  /** All five flags set to `b`. */
  function AllLocks(b: bool): (l: Locks)
    ensures l.movementX == b && l.movementY == b && l.rotation == b && l.scalingX == b && l.scalingY == b
  {
    Locks(b, b, b, b, b)
  }

  predicate UniformLocks(l: Locks) {
    l.movementX == l.movementY == l.rotation == l.scalingX == l.scalingY
  }

  /** One child of a table group: a cell's background rectangle or its text. */
  datatype TablePart =
    | CellBackground(left: int, top: int, width: int, height: int, fill: string, stroke: string, strokeWidth: int)
    | CellText(text: string, left: int, top: int, fontSize: int, fontFamily: string,
               fontWeight: string, fill: string, width: int)

  /** What kind of fabric object, with the attributes the editor sets. */
  datatype Shape =
    | TextBox(text: string, fontSize: int, fontFamily: string, fill: string)
    | Rectangle(width: int, height: int, fill: string, stroke: string, strokeWidth: int)
    | CircleShape(radius: int, fill: string, stroke: string, strokeWidth: int)
    | Picture(src: string)
    | TableGroup(parts: seq<TablePart>)

  /** The `data` record the editor attaches to objects it creates. */
  datatype ObjectData = ObjectData(layerId: string, tag: string)

  datatype CanvasObject = CanvasObject(
    uid: nat,
    shape: Shape,
    left: real,
    top: real,
    scaleX: real,
    scaleY: real,
    data: Option<ObjectData>,
    visible: bool,
    locks: Locks)

  /** `obj.data?.layerId`. */
  function LayerIdOf(o: CanvasObject): Option<string> {
    if o.data.Some? then Some(o.data.value.layerId) else None
  }

  /** `obj.data?.layerId === id`. */
  predicate OnLayer(o: CanvasObject, id: string) {
    o.data.Some? && o.data.value.layerId == id
  }

  datatype Editor = Editor(store: EditorStore.State, objects: seq<CanvasObject>, active: Option<nat>)

  /** Where the active object sits in the object list: the first object with
      its identity; none once it has been removed. */
  function ActiveIndex(e: Editor): (k: Option<nat>)
    ensures k.Some? ==> k.value < |e.objects| && e.active == Some(e.objects[k.value].uid)
    ensures k.None? ==> e.active.None? || forall i :: 0 <= i < |e.objects| ==> e.objects[i].uid != e.active.value
  {
    if e.active.None? then None else UidIndex(e.objects, e.active.value)
  }

  /** The first position of `uid` in `objs`. */
  function UidIndex(objs: seq<CanvasObject>, uid: nat): (k: Option<nat>)
    ensures k.Some? ==> k.value < |objs| && objs[k.value].uid == uid
    ensures k.Some? ==> forall i :: 0 <= i < k.value ==> objs[i].uid != uid
    ensures k.None? ==> forall i :: 0 <= i < |objs| ==> objs[i].uid != uid
  {
    if objs == [] then None
    else if objs[0].uid == uid then Some(0)
    else
      var k := UidIndex(objs[1..], uid);
      if k.None? then None else Some(k.value + 1)
  }

  /** An identity no object on the canvas has yet: a freshly constructed
      fabric object. */
  function FreshUid(objs: seq<CanvasObject>): (u: nat)
    ensures forall i :: 0 <= i < |objs| ==> objs[i].uid < u
  {
    if objs == [] then 0
    else
      var rest := FreshUid(objs[1..]);
      assert forall i :: 1 <= i < |objs| ==> objs[i] == objs[1..][i - 1];
      if objs[0].uid < rest then rest else objs[0].uid + 1
  }

  /** No two objects share an identity. */
  predicate UniqueUids(objs: seq<CanvasObject>) {
    forall i, j :: 0 <= i < j < |objs| ==> objs[i].uid != objs[j].uid
  }

  /** `canvas.add(o); canvas.setActiveObject(o)`. */
  function AddAndActivate(e: Editor, o: CanvasObject): (r: Editor)
    ensures r.objects == e.objects + [o] && r.active == Some(o.uid) && r.store == e.store
  {
    e.(objects := e.objects + [o], active := Some(o.uid))
  }

  /** A freshly constructed fabric object: shown, no locks, no scaling. */
  function NewObject(uid: nat, shape: Shape, left: real, top: real, data: Option<ObjectData>): CanvasObject {
    CanvasObject(uid, shape, left, top, 1.0, 1.0, data, true, AllLocks(false))
  }
}

=== FILE: seqs.dfy ===
/** The array primitives the editor leans on (`slice`, `filter`), stated once
    with the facts the rest of the model needs about them. */
module Seqs {

  /** JavaScript's `s.slice(0, end)`: a negative `end` counts from the back,
      an `end` past the length is cut back to the length. */
  function Take<T>(s: seq<T>, end: int): (r: seq<T>)
    ensures |r| <= |s|
    ensures r == s[..|r|]
    ensures 0 <= end <= |s| ==> |r| == end
    ensures end > |s| ==> r == s
    ensures end < 0 ==> |r| == (if |s| + end < 0 then 0 else |s| + end)
  {
    if end < 0 then (if |s| + end < 0 then [] else s[..|s| + end])
    else if end > |s| then s
    else s[..end]
  }

  /** JavaScript's `s.filter(p)`: the entries satisfying `p`, in their order. */
  function Filter<T(!new)>(s: seq<T>, p: T -> bool): (r: seq<T>)
    ensures |r| <= |s|
    ensures forall x :: x in r <==> x in s && p(x)
    ensures multiset(r) <= multiset(s)
  {
    if s == [] then []
    else
      assert s == [s[0]] + s[1..];
      if p(s[0]) then [s[0]] + Filter(s[1..], p) else Filter(s[1..], p)
  }

  /** Every entry that passes survives exactly as often as it occurs, and no
      other entry survives. */
  lemma {:induction false} FilterCounts<T(!new)>(s: seq<T>, p: T -> bool)
    ensures forall x :: multiset(Filter(s, p))[x] == if p(x) then multiset(s)[x] else 0
  {
    if s != [] {
      FilterCounts(s[1..], p);
      assert s == [s[0]] + s[1..];
    }
  }

  /** `a` is `b` with some entries dropped and the rest kept in order. */
  predicate SubsequenceOf<T(==)>(a: seq<T>, b: seq<T>)
    decreases |b|
  {
    if a == [] then true
    else if b == [] then false
    else (a[0] == b[0] && SubsequenceOf(a[1..], b[1..])) || SubsequenceOf(a, b[1..])
  }

  /** Filtering only drops entries: what survives keeps its relative order. */
  lemma {:induction false} FilterIsSubsequence<T(!new)>(s: seq<T>, p: T -> bool)
    ensures SubsequenceOf(Filter(s, p), s)
  {
    if s != [] {
      FilterIsSubsequence(s[1..], p);
      var rest := Filter(s[1..], p);
      if p(s[0]) {
        assert ([s[0]] + rest)[1..] == rest;
      } else {
        SubsequenceSkipsHead(rest, s);
      }
    }
  }

  /** A subsequence of the tail is a subsequence of the whole. */
  lemma SubsequenceSkipsHead<T>(a: seq<T>, b: seq<T>)
    requires b != [] && SubsequenceOf(a, b[1..])
    ensures SubsequenceOf(a, b)
  {
  }

  /** When every entry passes, filtering changes nothing. */
  lemma {:induction false} FilterKeepsAll<T(!new)>(s: seq<T>, p: T -> bool)
    requires forall i :: 0 <= i < |s| ==> p(s[i])
    ensures Filter(s, p) == s
  {
    if s != [] {
      FilterKeepsAll(s[1..], p);
      assert s == [s[0]] + s[1..];
    }
  }

  /** Filtering distributes over concatenation. */
  lemma {:induction false} FilterAppend<T(!new)>(a: seq<T>, b: seq<T>, p: T -> bool)
    ensures Filter(a + b, p) == Filter(a, p) + Filter(b, p)
  {
    if a == [] {
      assert a + b == b;
    } else {
      assert (a + b)[0] == a[0];
      assert (a + b)[1..] == a[1..] + b;
      FilterAppend(a[1..], b, p);
    }
  }

  /** Two tests that agree on every entry filter alike. */
  lemma {:induction false} FilterAgrees<T(!new)>(s: seq<T>, p: T -> bool, q: T -> bool)
    requires forall i :: 0 <= i < |s| ==> p(s[i]) == q(s[i])
    ensures Filter(s, p) == Filter(s, q)
  {
    if s != [] {
      FilterAgrees(s[1..], p, q);
    }
  }
}

=== FILE: table_modal.dfy ===
/** The table-size dialog (src/components/Modal/TableModal.tsx): two number
    inputs clamped on every change, and a confirm button that reports the
    current sizes and closes the dialog. `parseInt` of the input text is an
    `Option<int>`, `None` standing for NaN. */
module TableModal {
  import opened Wrappers

  const MaxRows := 20
  const MaxColumns := 10
  const DefaultRows := 3
  const DefaultColumns := 4

  /** `Math.min(hi, Math.max(1, parseInt(text) || 1))`: NaN and 0 are falsy
      and become 1; anything else is clamped into [1, hi]. */
  function ClampCount(parsed: Option<int>, hi: int): (n: int)
    requires hi >= 1
    ensures 1 <= n <= hi
    ensures parsed.Some? && 1 <= parsed.value <= hi ==> n == parsed.value
    ensures parsed.None? || parsed.value <= 1 ==> n == 1
    ensures parsed.Some? && parsed.value >= hi ==> n == hi
  {
    var v := if parsed.None? || parsed.value == 0 then 1 else parsed.value;
    var low := if v < 1 then 1 else v;
    if hi < low then hi else low
  }

  /** Clamping a count that is already clamped changes nothing. */
  lemma ClampIdempotent(parsed: Option<int>, hi: int)
    requires hi >= 1
    ensures ClampCount(Some(ClampCount(parsed, hi)), hi) == ClampCount(parsed, hi)
  {
  }

  datatype Modal = Modal(isOpen: bool, rows: int, columns: int)

  /** The sizes the dialog keeps are within their ranges. */
  predicate InRange(m: Modal) {
    1 <= m.rows <= MaxRows && 1 <= m.columns <= MaxColumns
  }

  /** The dialog as first mounted: 3 rows, 4 columns. */
  function Mount(isOpen: bool): (m: Modal)
    ensures InRange(m) && m.rows == DefaultRows && m.columns == DefaultColumns && m.isOpen == isOpen
  {
    Modal(isOpen, DefaultRows, DefaultColumns)
  }

  /** The rows input's `onChange`. */
  function RowsChanged(m: Modal, parsed: Option<int>): (r: Modal)
    ensures 1 <= r.rows <= MaxRows && r.columns == m.columns && r.isOpen == m.isOpen
    ensures InRange(m) ==> InRange(r)
  {
    m.(rows := ClampCount(parsed, MaxRows))
  }

  /** The columns input's `onChange`. */
  function ColumnsChanged(m: Modal, parsed: Option<int>): (r: Modal)
    ensures 1 <= r.columns <= MaxColumns && r.rows == m.rows && r.isOpen == m.isOpen
    ensures InRange(m) ==> InRange(r)
  {
    m.(columns := ClampCount(parsed, MaxColumns))
  }

  /** A call the dialog makes on its owner. */
  datatype Callback = OnConfirm(rows: int, columns: int) | OnClose

  /** The confirm button: `onConfirm(rows, columns)` with the current sizes,
      then `onClose()`. A closed dialog renders nothing, so has no button. */
  function ConfirmClicked(m: Modal): (calls: seq<Callback>)
    ensures !m.isOpen ==> calls == []
    ensures m.isOpen ==> |calls| == 2 && calls[0] == OnConfirm(m.rows, m.columns) && calls[1] == OnClose
  {
    if m.isOpen then [OnConfirm(m.rows, m.columns), OnClose] else []
  }

  /** One user edit of the dialog. */
  datatype Edit = EditRows(parsed: Option<int>) | EditColumns(parsed: Option<int>)

  function ApplyEdits(m: Modal, edits: seq<Edit>): (r: Modal)
    requires InRange(m)
    ensures InRange(r) && r.isOpen == m.isOpen
    decreases |edits|
  {
    if edits == [] then m
    else
      var next := match edits[0]
        case EditRows(p) => RowsChanged(m, p)
        case EditColumns(p) => ColumnsChanged(m, p);
      ApplyEdits(next, edits[1..])
  }

  /** Whatever the user types, confirming reports sizes within 1..20 rows and
      1..10 columns. */
  lemma ConfirmedSizesInRange(isOpen: bool, edits: seq<Edit>)
    ensures var calls := ConfirmClicked(ApplyEdits(Mount(isOpen), edits));
      forall i :: 0 <= i < |calls| && calls[i].OnConfirm? ==>
        1 <= calls[i].rows <= MaxRows && 1 <= calls[i].columns <= MaxColumns
  {
  }
}

=== FILE: types.dfy ===
/** The records the editor store keeps: placed elements and the layer list
    (src/types/index.ts). TypeScript `number` fields are modelled as `real`;
    an optional field (`content?`) is an `Option`. */
module Types {
  import opened Wrappers

  datatype ElementType = TextElement | ImageElement | ShapeElement | FieldElement

  datatype ElementStyle = ElementStyle(
    fontFamily: Option<string>,
    fontSize: Option<real>,
    fontWeight: Option<string>,
    color: Option<string>,
    backgroundColor: Option<string>,
    borderRadius: Option<real>,
    borderWidth: Option<real>,
    borderColor: Option<string>,
    opacity: Option<real>,
    shadow: Option<string>)

  /** A placed element. The keyboard shortcuts hand `addElement` a bare
      string such as `'text'` where a record is expected; the store keeps it
      as it is, so a stored entry is either a record or such a `KindName`. */
  datatype Element =
    | Element(
    id: string,
    kind: ElementType,
    x: real,
    y: real,
    width: real,
    height: real,
    rotation: real,
    content: Option<string>,
    style: Option<ElementStyle>,
    layerId: Option<string>)
    | KindName(name: string)

  /** `el.id === id`: a bare string has no `id`, and `undefined` equals no
      string. */
  predicate HasId(el: Element, id: string) {
    el.Element? && el.id == id
  }

  /** A `Partial<Element>`: `Some` marks a key the update object carries. */
  datatype ElementPatch = ElementPatch(
    id: Option<string>,
    kind: Option<ElementType>,
    x: Option<real>,
    y: Option<real>,
    width: Option<real>,
    height: Option<real>,
    rotation: Option<real>,
    content: Option<string>,
    style: Option<ElementStyle>,
    layerId: Option<string>)

  const NoElementChanges := ElementPatch(None, None, None, None, None, None, None, None, None, None)

  /** `{ ...el, ...updates }`: every key the patch carries overrides. The
      store only spreads entries whose `id` matched, so only records. */
  function MergeElement(el: Element, p: ElementPatch): Element
    requires el.Element?
  {
    Element(
      p.id.GetOr(el.id),
      p.kind.GetOr(el.kind),
      p.x.GetOr(el.x),
      p.y.GetOr(el.y),
      p.width.GetOr(el.width),
      p.height.GetOr(el.height),
      p.rotation.GetOr(el.rotation),
      if p.content.Some? then p.content else el.content,
      if p.style.Some? then p.style else el.style,
      if p.layerId.Some? then p.layerId else el.layerId)
  }

  /** Spreading the same update twice is spreading it once, and an empty
      update is no change. */
  lemma MergeElementIdempotent(el: Element, p: ElementPatch)
    requires el.Element?
    ensures MergeElement(MergeElement(el, p), p) == MergeElement(el, p)
    ensures MergeElement(el, NoElementChanges) == el
  {
  }

  datatype Layer = Layer(id: string, name: string, visible: bool, locked: bool)

  /** A `Partial<Layer>`. */
  datatype LayerPatch = LayerPatch(
    id: Option<string>,
    name: Option<string>,
    visible: Option<bool>,
    locked: Option<bool>)

  /** `{ ...layer, ...updates }`. */
  function MergeLayer(l: Layer, p: LayerPatch): Layer {
    Layer(p.id.GetOr(l.id), p.name.GetOr(l.name), p.visible.GetOr(l.visible), p.locked.GetOr(l.locked))
  }

  /** `layers.findIndex(l => l.id === id)`: the first position holding `id`,
      or -1 when no layer has it. */
  function LayerIndex(layers: seq<Layer>, id: string): (i: int)
    ensures -1 <= i < |layers|
    ensures i >= 0 ==> layers[i].id == id
    ensures forall k :: 0 <= k < |layers| && (i == -1 || k < i) ==> layers[k].id != id
  {
    if layers == [] then -1
    else if layers[0].id == id then 0
    else
      var j := LayerIndex(layers[1..], id);
      if j == -1 then -1 else j + 1
  }

  /** `layers.find(l => l.id === id)`. */
  function FindLayer(layers: seq<Layer>, id: string): (r: Option<Layer>)
    ensures r.None? <==> forall k :: 0 <= k < |layers| ==> layers[k].id != id
    ensures r.Some? ==> r.value in layers && r.value.id == id
    ensures r.Some? ==> 0 <= LayerIndex(layers, id) && r.value == layers[LayerIndex(layers, id)]
  {
    var i := LayerIndex(layers, id);
    if i < 0 then None else Some(layers[i])
  }

  predicate HasLayer(layers: seq<Layer>, id: string) {
    exists k :: 0 <= k < |layers| && layers[k].id == id
  }

  /** No two layers share an id. */
  predicate UniqueLayerIds(layers: seq<Layer>) {
    forall i, j :: 0 <= i < j < |layers| ==> layers[i].id != layers[j].id
  }
}

=== FILE: wrappers.dfy ===
/** Optional values: `undefined`/`null` in the editor's TypeScript, and NaN
    for a failed `parseInt`. */
module Wrappers {

  datatype Option<+T> = None | Some(value: T) {

    /** The value, or `default` when there is none (JavaScript's `v ?? default`). */
    function GetOr(default: T): T {
      match this
      case Some(v) => v
      case None => default
    }
  }
}
